=== FILE: README.md ===
# Subtitle parsing and the video job's pure steps, in Dafny

A model of a small subtitle-to-video tool. It covers:

- `subtitle_processor.py`: reading SRT and WebVTT subtitle text into cue records. Each record holds display times, times in seconds and text.
- `video_generator.py`'s `generate_video`: writing the cues to a temporary SRT file, computing the video length, decoding the colour setting, escaping the font name and mapping FFmpeg's outcome to the result record.

Times in seconds are exact `real` numbers. `format_time` rounds the seconds field half to even on that exact value. Text is `seq<char>`.

Modules, one per file:

- `Wrappers` (`wrappers.dfy`): `Option` and `Result`. `Err` carries the message of the Python exception.
- `Text` (`text.dfy`): the string primitives the code relies on: `str.strip`, `str.split`, `str.join`, `str.replace`, `in`, and decimal numerals and padding.
- `Timestamp` (`timestamp.dfy`): `parse_srt_time` and `format_time`, over the four digit groups of a timestamp (`Fields`).
- `TimeLine` (`time_line.dfy`): the time-line regular expression `(\d+:\d+:\d+,\d+)\s*-->\s*(\d+:\d+:\d+,\d+)` and its WebVTT twin. They are written as a deterministic scanner, with soundness and completeness lemmas.
- `Blocks` (`blocks.dfy`): `re.split(r'\n\n+', …)`.
- `Subtitles` (`subtitles.dfy`): the cue record, the per-block steps of `parse_srt` and `parse_vtt`, both parsers, and the format dispatch.
- `Video` (`video.dfy`): the pure part of `generate_video`. The FFmpeg run is a parameter (`ToolOutcome`).
- `RoundTrip` (`round_trip.dfy`): what the writer and the parsers do to each other. Three results:
  - the SRT file the video job writes parses back into the same cues;
  - a WebVTT file written by a reference writer parses back too (the tool itself writes only SRT);
  - the cases where text is lost.

## Model

| member | source | states |
|---|---|---|
| Timestamp.ParseSrtTime | subtitle_processor.py:4-7 | A time is produced exactly when the string, with ',' read as '.', splits on ':' into three fields that each read as a number; the time is then non-negative. Every other input is the error case. |
| Timestamp.ParseComposed | subtitle_processor.py:6-7 | A timestamp `H:M:S,F` or `H:M:S.F` reads as H·3600 + M·60 + S.F, whichever separator it uses. |
| Timestamp.ClockDecomposition | subtitle_processor.py:11-13 | For seconds ≥ 0: `seconds // 3600`, `(seconds % 3600) // 60` and `seconds % 60` rebuild the input, with minutes in 0..59. |
| Timestamp.RoundHalfEven | subtitle_processor.py:14 | The rounding of the `.3f` format lands within half a unit of its input, leaves whole numbers alone, and sends an exact tie to the even neighbour. |
| Timestamp.TimeFields | subtitle_processor.py:11-14 | The fields written for a time are well-formed. Hours are at least two digits, with no leading zero beyond two, and bracket the input; minutes are two digits below 60 and bracket the time within the hour, so rounding never carries into them; the seconds field is two digits and at most 60; milliseconds are three digits. The value is within half a millisecond of the input, and equals it on whole milliseconds. |
| Timestamp.FormatTime | subtitle_processor.py:9-14 | Every result has the shape `HH…:MM:SS,mmm`: digits everywhere except the two colons and the comma, hours longer than two digits start with a non-zero digit, the minutes tens digit is at most 5, and the seconds field is at most 60 (60 being the carry of rounding). |
| Timestamp.ParseFormatRoundTrip | subtitle_processor.py:4-14 | A whole number of milliseconds survives `format_time` followed by `parse_srt_time`. |
| Timestamp.ParseFormatWithinHalfMilli | subtitle_processor.py:4-14 | For every non-negative time, formatting then parsing succeeds and is off by at most half a millisecond. |
| Timestamp.FormatTimeInjective | subtitle_processor.py:9-14 | Distinct whole-millisecond times get distinct timestamps. |
| Timestamp.SecondsFieldCarry | subtitle_processor.py:12-14 | Rounding carries into the seconds field and not into the minutes: 59.9996 s is written with minutes 00 and seconds 60, and reads back as 60 s. |
| Text.ZeroPad | subtitle_processor.py:14 | The `02d` format: a numeral of the given value, at least as wide as asked, and exactly that wide when the value fits. |
| Text.ZeroPadNoLeadingZero | subtitle_processor.py:14 | A value too wide for the `02d` format is written in full with no leading zero (hours of 100 or more give "100", not "0100"). |
| Text.Split | subtitle_processor.py:35 | `str.split` on one character: at least one piece, no piece holds the separator, and the pieces join back to the input. |
| Text.SplitJoin | subtitle_processor.py:35 | Splitting undoes joining when no part holds the separator. |
| Text.ReplaceChar | subtitle_processor.py:6 | `str.replace` on single characters: same length, and each character is replaced exactly when it is the one searched for. |
| Text.TrimStart | subtitle_processor.py:35 | The stripped prefix is all whitespace and what is left starts with a non-space. |
| Text.TrimEnd | subtitle_processor.py:35 | The stripped suffix is all whitespace and what is left ends with a non-space. |
| TimeLine.MatchTimestampSound | subtitle_processor.py:46 | What the timestamp scanner finds is a well-formed timestamp at the start of the string, not followed by another digit. |
| TimeLine.MatchTimestampFindsPrefix | subtitle_processor.py:46 | Completeness: whenever a timestamp starts the string, the scanner finds one with the same hours, minutes and seconds and a fraction that extends it. |
| TimeLine.MatchTimestampExact | subtitle_processor.py:46 | A timestamp not followed by a digit is found exactly. |
| TimeLine.MatchTimeLineSound | subtitle_processor.py:46 | A match is two well-formed timestamps around an arrow with whitespace gaps, at the start of the line, and the next character is not a digit. |
| TimeLine.MatchTimeLineFindsPrefix | subtitle_processor.py:46 | Completeness: a line that starts with the shape of a time line is matched, with the same first timestamp and gaps. So no match means that no prefix has that shape. |
| TimeLine.MatchTimeLineExact | subtitle_processor.py:86 | A time line not followed by a digit is matched exactly: both timestamps and both gaps come back unchanged. |
| Blocks.SplitBlocks | subtitle_processor.py:32 | `re.split(r'\n\n+', …)` gives at least one piece, and no piece holds two newlines in a row. |
| Blocks.SplitBlocksCons | subtitle_processor.py:32 | A block, then a run of two or more newlines, then the rest: the block is split off and the whole run is consumed. |
| Blocks.SplitBlocksJoin | subtitle_processor.py:32 | Splitting undoes joining blocks with blank lines, when no block is empty, starts or ends with a newline, or holds a blank line. |
| Blocks.JoinLinesNoBreak | subtitle_processor.py:35 | Non-empty lines joined by single newlines hold no blank line, so a block of lines is never split. |
| Subtitles.CueOf | subtitle_processor.py:48-57 | The record built from a match is well-formed and carries the given text. Its seconds are the values of the matched timestamps, and its display times are `format_time` of them. |
| Subtitles.BlockLines | subtitle_processor.py:35 | `block.strip().split('\n')`: at least one line, none holding a newline, and the lines join back to the stripped block. |
| Subtitles.FirstArrow | subtitle_processor.py:75-79 | The search finds a line holding `-->` such that no earlier line holds one; `None` means that no line holds one. |
| Subtitles.ParseSrtBlock | subtitle_processor.py:34-57 | A record comes only from a block of at least two lines, and is well-formed; SrtBlockOutcome states when a block is kept and which record it gives. |
| Subtitles.SrtBlockOutcome | subtitle_processor.py:35-57 | A block is kept exactly when it has two lines or more and its time line (the second line if that holds `-->`, the first otherwise) matches the pattern with ','. The record is then CueOf that match and the text from the third line on, or empty text when there is no third line or it holds `-->`. |
| Subtitles.ParseVttBlock | subtitle_processor.py:71-97 | A record comes only from a block of at least two lines, and is well-formed; VttBlockOutcome and VttArrowOutcome state when a block is kept and which record it gives. |
| Subtitles.VttBlockOutcome | subtitle_processor.py:72-81 | A block with fewer than two lines, or with no line holding `-->`, is dropped. |
| Subtitles.VttArrowOutcome | subtitle_processor.py:76-97 | For a block of two lines or more, the first line holding `-->` is the time line: the block is kept exactly when that line matches the pattern with '.', and the record is CueOf that match and every later line joined with spaces. A cue identifier line before the time line is skipped, and text lines holding `-->` are kept as text. |
| Subtitles.StripHeader | subtitle_processor.py:66 | `re.sub(r'^WEBVTT.*\n', '', …)` changes the content exactly when it starts with WEBVTT and holds a newline. What it removes is a prefix that starts with WEBVTT and ends at the first newline. |
| Subtitles.Keep | subtitle_processor.py:47 | The appended records: no more than there are blocks, and each is the record of some block. |
| Subtitles.ParseSrt | subtitle_processor.py:27-59 | At most one record per block, all well-formed. |
| Subtitles.ParseVtt | subtitle_processor.py:61-99 | At most one record per block of the header-stripped content, all well-formed. |
| Subtitles.ParseSubtitleContent | subtitle_processor.py:16-25 | The WebVTT parser runs exactly when "WEBVTT" occurs in the content, the SRT parser otherwise; every record returned is well-formed. |
| Subtitles.ParseBlocksAppend | subtitle_processor.py:34-57 | Blocks are parsed independently: the records of a concatenation of blocks are the concatenation of their records. |
| Subtitles.ParseBlocksSingle | subtitle_processor.py:47-57 | One block gives its record when it parses and nothing otherwise. |
| Subtitles.OneLineBlockDropped | subtitle_processor.py:36 | A block that is one line after stripping gives no record in either format. |
| Subtitles.WebVttMarkerAnywhere | subtitle_processor.py:22 | Content with "WEBVTT" anywhere, even inside a cue's text, is read as WebVTT. |
| Video.SerializeFrom | video_generator.py:12-16 | No cues write nothing, and any cue writes something. |
| Video.SerializeAppend | video_generator.py:13-16 | Writing two runs of cues one after the other is writing them together, the numbering carrying on. |
| Video.MaxEnd | video_generator.py:20 | `max(...)` is at least every end time and is one of them. |
| Video.Duration | video_generator.py:19-22 | 5 seconds for no cues. Otherwise one second past the latest end time: at least each end plus one, and equal to one of them plus one. |
| Video.DurationCoversCues | video_generator.py:19-22 | Every cue ends before the video does. |
| Video.EscapeFontName | video_generator.py:32 | The result is at least as long as the name, and every space in it has a backslash before it. |
| Video.UnescapeEscape | video_generator.py:32 | The escape loses nothing: reading it back gives the font name. |
| Video.ParseHexInt | video_generator.py:27-29 | On the slices of at most two characters the program passes, `int(s, 16)` succeeds exactly on an optional sign and hex digits, surrounding whitespace allowed. Such a slice gives a value in -15..255. Every failure carries the ValueError text. |
| Video.Slice | video_generator.py:27-29 | Python slicing clamps at the end of the string: the exact slice when it lies inside, the tail from `i` when only `j` is past the end, and nothing when `i` is. |
| Video.DecodeColour | video_generator.py:25-29 | The colour decodes exactly when all three two-character slices are hex literals, and each component lies in -15..255. Otherwise the error is the ValueError text for the first slice that fails, quoting that slice. |
| Video.ColourRoundTrip | video_generator.py:25-29 | The six-digit colour written for any red, green and blue decodes to those components. |
| Video.SixHexDigitsDecode | video_generator.py:27-29 | A setting starting with six hex digits decodes to the bytes of its digit pairs; anything after them is ignored. |
| Video.ShortColourRejected | video_generator.py:27-29 | A setting of four characters or fewer is always rejected, with the error of one of its slices. |
| Video.PrepareJob | video_generator.py:12-32 | The job is prepared exactly when the colour decodes, and carries the colour error otherwise. A prepared job holds the SRT text of the cues, their duration, and the font name with every space escaped, which reads back as the setting. |
| Video.GenerateVideo | video_generator.py:49-74 | Success exactly when the colour decodes and FFmpeg exits with 0; the path is returned exactly on success. The message is fixed on success, "FFmpeg error: " plus stderr on a non-zero exit, and the exception text when the colour or the launch fails. |
| RoundTrip.SrtRoundTrip | video_generator.py:12-16 | `parse_srt` reads the temporary SRT file back into exactly the cues written. This holds for cues that are well-formed, in whole milliseconds, with one-line text that holds no arrow and does not end in whitespace. |
| RoundTrip.SerializedBlocks | subtitle_processor.py:32 | The written SRT file, stripped and split at blank lines, is exactly one block per cue, in order. |
| RoundTrip.SrtBlockParses | subtitle_processor.py:34-57 | The block written for a cue is parsed back into that cue. |
| RoundTrip.VttRoundTrip | subtitle_processor.py:61-99 | A WebVTT file of cues is read back into exactly those cues by the format dispatch. This holds for well-formed cues in whole milliseconds, with non-empty one-line text not ending in whitespace. |
| RoundTrip.VttBlockParses | subtitle_processor.py:71-97 | The WebVTT block written for a cue is parsed back into that cue. |
| RoundTrip.TimeLineMatches | subtitle_processor.py:46 | The time line `start --> end` is matched with both timestamps and single-space gaps. |
| RoundTrip.HeaderStripped | subtitle_processor.py:66 | The header line and its newline are removed, and nothing else. |
| RoundTrip.SrtMissingIndexLosesText | subtitle_processor.py:38-43 | An SRT block without its index line keeps its times, but its one text line is lost: text is only taken from the third line on. |
| RoundTrip.VttEmptyTextDropped | subtitle_processor.py:73 | A WebVTT block whose text is empty is dropped, since it strips to a single line. |

## Left out

- File reading (`open(..., encoding='utf-8-sig')`) is not modelled. The parsers take the content as text-mode reading delivers it: decoded, with the byte-order mark removed, and after universal-newline translation, so `\r\n` and a lone `\r` reach the parser as `\n`. A carriage return never appears in the modelled input.
- The FFmpeg process, the temporary file and its removal are not modelled. `GenerateVideo` takes the outcome of the run as a `ToolOutcome` parameter. Failures of file creation or writing, which would end in the `except` branch, are not modelled.
- The FFmpeg command layout (`video_generator.py` lines 35-46) is left out. `font_size` is used only there, so it is carried in `Settings` and never read.
- Missing keys in `settings` or a cue (`KeyError`), and values of the wrong type, are not modelled: records and settings are typed.
- Whitespace is the ASCII set that `str.strip`, `str.isspace` and `\s` agree on. Unicode whitespace and Unicode digits (which `\d` and `float()` also accept) are left out.
- Timestamp.ParseDecimal: models `float()` only on digits with at most one decimal point. Signs, exponents, underscores, `inf` and `nan` are left out. The parsers only pass it text matched by `\d+`.
- Timestamp.FormatTime: rounds the exact value half to even. In Python, `float()` and the sum in `parse_srt_time` already round to the nearest binary double (",100" is not exact), and the `.3f` format then rounds that double, so results can differ on values that are not exact in binary, and on ties.
- Timestamp.ParseSrtTime: times are exact reals with no upper bound. A timestamp too large for a double (an hours field of about 305 digits) becomes `inf` in Python. `format_time` then raises ValueError at `int(inf // 3600)`, and that exception ends `parse_srt`/`parse_vtt` for the whole file. The model instead builds a record with the exact value.
- Video.ParseHexInt: the ValueError text quotes the slice between single quotes. Python's `repr` would choose double quotes or escapes for some slices.
- Video.ParseHexInt: the `0x` prefix and the underscores between digits that `int(s, 16)` accepts are not admitted. Neither can occur in an accepted slice of at most two characters, which is all the program passes.
- RoundTrip.VttRoundTrip: the tool writes only SRT. The WebVTT writer it uses is a reference writer, one block per cue after a `WEBVTT` line.
- `app.py` (the web front end that calls these functions) and the repository's frame and preview helpers are not part of this model.

=== FILE: blocks.dfy ===
/** `re.split(r'\n\n+', text)`: cutting subtitle content into blocks at every
    run of two or more newlines. */
module Blocks {
  import opened Text

  /** Two newlines in a row start at position `k` of `s`. */
  predicate BreakAt(s: string, k: nat) {
    k + 1 < |s| && s[k] == '\n' && s[k + 1] == '\n'
  }

  /** `s` holds no run of two newlines, so the pattern does not match in it. */
  predicate NoBreak(s: string) {
    forall k: nat :: k < |s| ==> !BreakAt(s, k)
  }

  /** The leftmost position at or after `i` where the pattern matches, or
      `|s|` when it matches nowhere there. */
  function FirstBreak(s: string, i: nat): (r: nat)
    requires i <= |s|
    ensures i <= r <= |s|
    ensures r < |s| ==> BreakAt(s, r)
    decreases |s| - i
  {
    if i + 1 >= |s| then |s|
    else if s[i] == '\n' && s[i + 1] == '\n' then i
    else FirstBreak(s, i + 1)
  }

  /** Where the greedy `\n+` started at `i` stops. */
  function NewlineEnd(s: string, i: nat): (j: nat)
    requires i <= |s|
    ensures i <= j <= |s| && (j < |s| ==> s[j] != '\n')
    decreases |s| - i
  {
    if i < |s| && s[i] == '\n' then NewlineEnd(s, i + 1) else i
  }

  /** The pieces of `s` between the matches of `\n\n+`, in order. */
  function SplitBlocks(s: string): (r: seq<string>)
    ensures |r| >= 1
    ensures forall k :: 0 <= k < |r| ==> NoBreak(r[k])
    decreases |s|
  {
    var i := FirstBreak(s, 0);
    if i == |s| then
      FirstBreakSkips(s, 0);
      [s]
    else
      var j := NewlineEnd(s, i + 2);
      FirstBreakSkips(s, 0);
      BreakFreePrefix(s, i);
      [s[..i]] + SplitBlocks(s[j..])
  }

  /** No match of the pattern is skipped over by the leftmost-match search. */
  lemma {:induction false} FirstBreakSkips(s: string, i: nat)
    requires i <= |s|
    ensures forall k: nat :: i <= k < FirstBreak(s, i) ==> !BreakAt(s, k)
    decreases |s| - i
  {
    if i + 1 < |s| && !(s[i] == '\n' && s[i + 1] == '\n') {
      FirstBreakSkips(s, i + 1);
    }
  }

  lemma BreakFreePrefix(s: string, i: nat)
    requires i <= |s| && forall k: nat :: k < i ==> !BreakAt(s, k)
    ensures NoBreak(s[..i])
  {
    forall k: nat | k < i
      ensures !BreakAt(s[..i], k)
    {
      assert BreakAt(s[..i], k) ==> BreakAt(s, k);
    }
  }

  lemma {:induction false} FirstBreakStops(s: string, i: nat, r: nat)
    requires i <= r <= |s|
    requires forall k: nat :: i <= k < r ==> !BreakAt(s, k)
    requires r == |s| || BreakAt(s, r)
    ensures FirstBreak(s, i) == r
    decreases r - i
  {
    if i < r {
      assert !BreakAt(s, i);
      FirstBreakStops(s, i + 1, r);
    }
  }

  lemma {:induction false} NewlineEndStops(s: string, i: nat, j: nat)
    requires i <= j <= |s|
    requires forall k :: i <= k < j ==> s[k] == '\n'
    requires j == |s| || s[j] != '\n'
    ensures NewlineEnd(s, i) == j
    decreases j - i
  {
    if i < j {
      NewlineEndStops(s, i + 1, j);
    }
  }

  /** Text without a run of two newlines is a single block. */
  lemma SplitBlocksSingle(s: string)
    requires NoBreak(s)
    ensures SplitBlocks(s) == [s]
  {
  }

  /** A block, a run of at least two newlines and the rest: the block is split
      off, the whole run is consumed, and the rest is split on its own. */
  lemma SplitBlocksCons(b: string, nl: string, rest: string)
    requires NoBreak(b) && (b == [] || b[|b| - 1] != '\n')
    requires |nl| >= 2 && AllNewlines(nl)
    requires rest == [] || rest[0] != '\n'
    ensures SplitBlocks(b + nl + rest) == [b] + SplitBlocks(rest)
  {
    var s := b + nl + rest;
    ConsBreak(b, nl, rest);
    SplitBlocksStep(s, |b|, |b| + |nl|);
    assert s[..|b|] == b;
    assert s[|b| + |nl|..] == rest;
  }

  /** In a block, a run of newlines and the rest, the first match of the
      pattern starts right after the block and ends right after the run. */
  lemma ConsBreak(b: string, nl: string, rest: string)
    requires NoBreak(b) && (b == [] || b[|b| - 1] != '\n')
    requires |nl| >= 2 && AllNewlines(nl)
    requires rest == [] || rest[0] != '\n'
    ensures var s := b + nl + rest;
            FirstBreak(s, 0) == |b| < |s| && NewlineEnd(s, |b| + 2) == |b| + |nl|
  {
    var s := b + nl + rest;
    var i := |b|;
    var j := |b| + |nl|;
    forall k: nat | k < i
      ensures !BreakAt(s, k)
    {
      if k + 1 < i {
        assert !BreakAt(b, k);
      } else {
        assert s[k] == b[|b| - 1];
      }
    }
    assert BreakAt(s, i) by { assert s[i] == nl[0] && s[i + 1] == nl[1]; }
    FirstBreakStops(s, 0, i);
    assert forall k :: i + 2 <= k < j ==> s[k] == nl[k - i];
    assert j < |s| ==> s[j] == rest[0];
    NewlineEndStops(s, i + 2, j);
  }

  /** One step of the split: the piece before the first match, then the
      split of what follows the match. */
  lemma SplitBlocksStep(s: string, i: nat, j: nat)
    requires FirstBreak(s, 0) == i < |s| && i + 2 <= |s| && NewlineEnd(s, i + 2) == j
    ensures SplitBlocks(s) == [s[..i]] + SplitBlocks(s[j..])
  {
  }

  /** The blocks that make up text cut apart by blank lines: non-empty, with
      no newline at either end and no run of two newlines inside. */
  predicate IsBlock(b: string) {
    b != [] && b[0] != '\n' && b[|b| - 1] != '\n' && NoBreak(b)
  }

  /** Splitting is the inverse of joining blocks with blank lines. */
  lemma {:induction false} SplitBlocksJoin(bs: seq<string>)
    requires |bs| >= 1 && forall k :: 0 <= k < |bs| ==> IsBlock(bs[k])
    ensures SplitBlocks(Join(bs, "\n\n")) == bs
  {
    if |bs| == 1 {
      SplitBlocksSingle(bs[0]);
    } else {
      var rest := Join(bs[1..], "\n\n");
      JoinHead(bs[1..], "\n\n");
      SplitBlocksCons(bs[0], "\n\n", rest);
      SplitBlocksJoin(bs[1..]);
      assert Join(bs, "\n\n") == bs[0] + "\n\n" + rest;
    }
  }

  /** Non-empty lines joined by single newlines hold no blank line. */
  lemma {:induction false} JoinLinesNoBreak(lines: seq<string>)
    requires forall k :: 0 <= k < |lines| ==> lines[k] != [] && '\n' !in lines[k]
    ensures NoBreak(Join(lines, "\n"))
    decreases |lines|
  {
    if |lines| > 1 {
      var rest := Join(lines[1..], "\n");
      var s := lines[0] + "\n" + rest;
      var n := |lines[0]|;
      JoinLinesNoBreak(lines[1..]);
      JoinHead(lines[1..], "\n");
      assert rest[0] == lines[1][0];
      forall k: nat | k < |s|
        ensures !BreakAt(s, k)
      {
        if k < n {
          assert s[k] == lines[0][k];
        } else if k == n {
          assert s[k + 1] == rest[0];
        } else {
          assert !BreakAt(rest, k - n - 1);
        }
      }
    }
  }

  /** A join of blocks starts with its first block. */
  lemma JoinHead(bs: seq<string>, sep: string)
    requires |bs| >= 1
    ensures StartsWith(Join(bs, sep), bs[0])
  {
    if |bs| > 1 {
      assert Join(bs, sep) == bs[0] + (sep + Join(bs[1..], sep));
    }
  }
}

=== FILE: round_trip.dfy ===
/** Writing cues out and reading them back: the SRT file generate_video writes
    is parsed by parse_srt into the very cues it was written from, and a
    WebVTT file laid out the same way is parsed back by the format dispatch. */
module RoundTrip {
  import opened Wrappers
  import opened Text
  import opened Timestamp
  import opened TimeLine
  import opened Blocks
  import opened Subtitles
  import opened Video

  // ---------------------------------------------------------------------------
  // Which cues survive the trip
  // ---------------------------------------------------------------------------

  /** One line of text whose end strip leaves alone. */
  predicate TextLine(text: string) {
    '\n' !in text && (text == "" || !IsSpace(text[|text| - 1]))
  }

  /** A cue the SRT writer and parser carry through unchanged: times in whole
      milliseconds (so format_time loses nothing), and text that is one line,
      holds no arrow and does not end in whitespace. */
  predicate SrtWritable(c: Cue) {
    && WellFormed(c)
    && IsWholeMillis(c.startSeconds) && IsWholeMillis(c.endSeconds)
    && TextLine(c.text) && !Contains(c.text, "-->")
  }

  /** A cue a WebVTT block carries through unchanged. Text may hold an arrow
      here, since only the first arrow line is the time line, but it must be
      there: a block with no text line after its time line is dropped. */
  predicate VttWritable(c: Cue) {
    && WellFormed(c)
    && IsWholeMillis(c.startSeconds) && IsWholeMillis(c.endSeconds)
    && TextLine(c.text) && c.text != ""
  }

  // ---------------------------------------------------------------------------
  // Layout of the written text
  // ---------------------------------------------------------------------------

  function TimeLineOf(start: string, end: string): string {
    start + " --> " + end
  }

  /** The time line for two timestamps with fractional separator `sep`. */
  function TimeLineFor(start: Fields, end: Fields, sep: char): string {
    TimeLineOf(Compose(start, sep), Compose(end, sep))
  }

  /** The lines of an SRT chunk before its blank line: index, time line, and
      the text line when there is text. */
  function SrtLines(start: Fields, end: Fields, text: string, index: nat): seq<string> {
    [NatToString(index), TimeLineFor(start, end, ',')] + (if text == "" then [] else [text])
  }

  /** An SRT chunk without the newlines that end it. */
  function SrtBlock(c: Cue, index: nat): string {
    NatToString(index) + "\n" + TimeLineOf(c.startTime, c.endTime) + (if c.text == "" then "" else "\n" + c.text)
  }

  /** The newlines that end an SRT chunk: the text's own newline and a blank
      line, so three of them when the text is empty. */
  function SrtGap(c: Cue): string {
    if c.text == "" then "\n\n\n" else "\n\n"
  }

  function SrtBlocks(cues: seq<Cue>, first: nat): (bs: seq<string>)
    ensures |bs| == |cues|
  {
    seq(|cues|, k requires 0 <= k < |cues| => SrtBlock(cues[k], first + k))
  }

  function SrtGaps(cues: seq<Cue>): (gs: seq<string>)
    ensures |gs| == |cues|
  {
    seq(|cues|, k requires 0 <= k < |cues| => SrtGap(cues[k]))
  }

  /** Blocks with the given runs of newlines between them; the run after the
      last block is left off. */
  function Layout(bs: seq<string>, gaps: seq<string>): string
    requires |bs| == |gaps| >= 1
    decreases |bs|
  {
    if |bs| == 1 then bs[0] else bs[0] + gaps[0] + Layout(bs[1..], gaps[1..])
  }

  /** A WebVTT block: the time line with '.' before the milliseconds, then the text. */
  function VttLines(start: Fields, end: Fields, text: string): seq<string> {
    [TimeLineFor(start, end, '.'), text]
  }

  /** Times a timestamp can be written for. */
  predicate NonNegative(c: Cue) {
    c.startSeconds >= 0.0 && c.endSeconds >= 0.0
  }

  function VttBlock(c: Cue): string
    requires NonNegative(c)
  {
    Join(VttLines(TimeFields(c.startSeconds), TimeFields(c.endSeconds), c.text), "\n")
  }

  /** A WebVTT file: the header line, a blank line, and one block per cue
      with blank lines between. */
  function WriteVtt(cues: seq<Cue>): string
    requires forall k :: 0 <= k < |cues| ==> NonNegative(cues[k])
  {
    "WEBVTT\n\n" + Join(VttBlocks(cues), "\n\n")
  }

  function VttBlocks(cues: seq<Cue>): (bs: seq<string>)
    requires forall k :: 0 <= k < |cues| ==> NonNegative(cues[k])
    ensures |bs| == |cues|
  {
    seq(|cues|, k requires 0 <= k < |cues| => VttBlock(cues[k]))
  }

  // ---------------------------------------------------------------------------
  // Round trips
  // ---------------------------------------------------------------------------

  /** parse_srt reads back exactly the cues the video job wrote to its
      temporary SRT file. */
  lemma SrtRoundTrip(cues: seq<Cue>)
    requires forall k :: 0 <= k < |cues| ==> SrtWritable(cues[k])
    ensures ParseSrt(SerializeSrt(cues)) == cues
  {
    if |cues| == 0 {
      assert Trim("") == "";
      NothingFromEmpty(Srt);
    } else {
      SerializedBlocks(cues);
      SrtBlocksParse(cues, 1);
    }
  }

  /** Stripping the written file and cutting it at blank lines gives the
      blocks of the chunks, one per cue. */
  lemma SerializedBlocks(cues: seq<Cue>)
    requires |cues| >= 1 && forall k :: 0 <= k < |cues| ==> SrtWritable(cues[k])
    ensures SplitBlocks(Trim(SerializeSrt(cues))) == SrtBlocks(cues, 1)
  {
    var bs := SrtBlocks(cues, 1);
    var gs := SrtGaps(cues);
    forall k | 0 <= k < |cues|
      ensures Chunk(bs[k]) && Gap(gs[k])
    {
      SrtChunkAt(cues, 1, k);
    }
    ChunksSplit(cues);
  }

  lemma ChunksSplit(cues: seq<Cue>)
    requires |cues| >= 1
    requires forall k :: 0 <= k < |cues| ==> Chunk(SrtBlocks(cues, 1)[k]) && Gap(SrtGaps(cues)[k])
    ensures SplitBlocks(Trim(SerializeSrt(cues))) == SrtBlocks(cues, 1)
  {
    var bs := SrtBlocks(cues, 1);
    var gs := SrtGaps(cues);
    assert Chunk(bs[0]) && Chunk(bs[|bs| - 1]) && Gap(gs[|cues| - 1]);
    assert forall k :: 0 <= k < |bs| ==> |bs[k]| > 0;
    SerializeLayout(cues, 1);
    assert gs[|cues| - 1] == SrtGap(cues[|cues| - 1]);
    assert SerializeSrt(cues) == Layout(bs, gs) + gs[|cues| - 1];
    LayoutTrimmed(bs, gs, gs[|cues| - 1]);
    LayoutSplits(bs, gs);
  }

  lemma SrtChunkAt(cues: seq<Cue>, first: nat, k: nat)
    requires k < |cues| && SrtWritable(cues[k])
    ensures Chunk(SrtBlocks(cues, first)[k]) && Gap(SrtGaps(cues)[k])
  {
    BlockAt(cues, first, k);
    SrtBlockShape(cues[k], first + k);
  }

  lemma BlockAt(cues: seq<Cue>, first: nat, k: nat)
    requires k < |cues|
    ensures SrtBlocks(cues, first)[k] == SrtBlock(cues[k], first + k) && SrtGaps(cues)[k] == SrtGap(cues[k])
  {
  }

  /** The format dispatch reads a written WebVTT file back into its cues. */
  lemma VttRoundTrip(cues: seq<Cue>)
    requires forall k :: 0 <= k < |cues| ==> NonNegative(cues[k])
    requires forall k :: 0 <= k < |cues| ==> VttWritable(cues[k])
    ensures ParseSubtitleContent(WriteVtt(cues)) == cues
  {
    forall k | 0 <= k < |cues|
      ensures Chunk(VttBlocks(cues)[k]) && ParseBlock(VttBlocks(cues)[k], Vtt) == Some(cues[k])
    {
      VttBlockAt(cues, k);
    }
    VttChunksParse(cues);
  }

  lemma VttChunksParse(cues: seq<Cue>)
    requires forall k :: 0 <= k < |cues| ==> NonNegative(cues[k])
    requires forall k :: 0 <= k < |cues| ==>
               Chunk(VttBlocks(cues)[k]) && ParseBlock(VttBlocks(cues)[k], Vtt) == Some(cues[k])
    ensures ParseSubtitleContent(WriteVtt(cues)) == cues
  {
    var bs := VttBlocks(cues);
    HeaderFirst(Join(bs, "\n\n"));
    if |cues| == 0 {
      EmptyVtt();
    } else {
      VttBodySplits(bs);
      ParseBlocksAllPresent(bs, Vtt, cues);
    }
  }

  /** A file with only the header holds no cues. */
  lemma EmptyVtt()
    ensures ParseSubtitleContent(WriteVtt([])) == []
  {
    var content := WriteVtt([]);
    assert VttBlocks([]) == [];
    assert content == "WEBVTT\n\n" + "";
    HeaderFirst("");
    assert "\n" + "" == "\n";
    NewlineTrimmed();
    EmptyBody("\n");
  }

  /** A header followed by whitespace only gives no cues. */
  lemma EmptyBody(rest: string)
    requires Trim(rest) == ""
    ensures ParseVtt("WEBVTT" + "\n" + rest) == []
  {
    HeaderStripped(rest);
    NothingFromEmpty(Vtt);
  }

  lemma NewlineTrimmed()
    ensures Trim("\n") == ""
  {
    var nl := "\n";
    assert forall i :: 0 <= i < |nl| ==> nl[i] == '\n';
    WhitespaceTrimmed(nl);
  }

  /** The written header is the first line, so the dispatch picks WebVTT. */
  lemma HeaderFirst(body: string)
    ensures "WEBVTT\n\n" + body == "WEBVTT" + "\n" + ("\n" + body)
    ensures Contains("WEBVTT\n\n" + body, "WEBVTT")
  {
    assert StartsWith("WEBVTT\n\n" + body, "WEBVTT");
  }

  lemma VttBlockAt(cues: seq<Cue>, k: nat)
    requires k < |cues| && VttWritable(cues[k])
    requires forall i :: 0 <= i < |cues| ==> NonNegative(cues[i])
    ensures Chunk(VttBlocks(cues)[k]) && ParseBlock(VttBlocks(cues)[k], Vtt) == Some(cues[k])
  {
    VttBlockShape(cues[k]);
    VttBlockParses(cues[k]);
  }

  /** Blocks written after the header and a blank line, with blank lines
      between, are what parse_vtt cuts the file back into. */
  lemma VttBodySplits(bs: seq<string>)
    requires |bs| >= 1 && forall k :: 0 <= k < |bs| ==> Chunk(bs[k])
    ensures SplitBlocks(Trim(StripHeader("WEBVTT" + "\n" + ("\n" + Join(bs, "\n\n"))))) == bs
  {
    HeaderStripped("\n" + Join(bs, "\n\n"));
    assert Chunk(bs[0]) && Chunk(bs[|bs| - 1]);
    JoinedChunksTrimmed(bs);
    SplitBlocksJoin(bs);
  }

  // ---------------------------------------------------------------------------
  // Timestamps and time lines
  // ---------------------------------------------------------------------------

  /** Every character of a timestamp is a digit or a separator. */
  lemma ComposeShape(f: Fields, sep: char)
    requires ValidFields(f) && sep != '\n'
    ensures var t := Compose(f, sep);
            |t| > 0 && '\n' !in t && IsDigit(t[0]) && IsDigit(t[|t| - 1])
  {
    assert '\n' !in f.hours && '\n' !in f.minutes && '\n' !in f.seconds && '\n' !in f.fraction;
    assert Compose(f, sep)[0] == f.hours[0];
    assert Compose(f, sep)[|Compose(f, sep)| - 1] == f.fraction[|f.fraction| - 1];
  }

  lemma TimeLineShape(start: Fields, end: Fields, sep: char)
    requires ValidFields(start) && ValidFields(end) && sep != '\n'
    ensures var t := TimeLineFor(start, end, sep);
            '\n' !in t && IsDigit(t[0]) && IsDigit(t[|t| - 1]) && Contains(t, "-->")
  {
    var a := Compose(start, sep);
    var b := Compose(end, sep);
    ComposeShape(start, sep);
    ComposeShape(end, sep);
    assert TimeLineOf(a, b) == (a + " ") + "-->" + (" " + b);
    ContainsInside(a + " ", "-->", " " + b);
    assert TimeLineOf(a, b)[0] == a[0];
    assert TimeLineOf(a, b)[|TimeLineOf(a, b)| - 1] == b[|b| - 1];
  }

  /** A time line written with single spaces around the arrow matches the
      pattern, giving back the two timestamps. */
  lemma TimeLineMatches(start: Fields, end: Fields, sep: char)
    requires ValidFields(start) && ValidFields(end) && (sep == ',' || sep == '.')
    ensures MatchTimeLine(TimeLineFor(start, end, sep), sep) == Some(TimeLineMatch(start, " ", " ", end))
  {
    var m := TimeLineMatch(start, " ", " ", end);
    var line := TimeLineFor(start, end, sep);
    assert MatchedText(m, sep) == line;
    assert line[..|line|] == line;
    MatchTimeLineExact(line, m, sep);
  }

  /** The match of a written time line is a valid one. Kept as its own lemma
      so that callers learn this without unfolding ValidMatch in their larger
      contexts. */
  lemma SpacedMatch(start: Fields, end: Fields)
    requires ValidFields(start) && ValidFields(end)
    ensures ValidMatch(TimeLineMatch(start, " ", " ", end))
  {
  }

  /** The record built from format_time's fields of a cue's own times, with
      the cue's own text, is that cue. */
  lemma CueFromFields(c: Cue, sep: char)
    requires WellFormed(c) && IsWholeMillis(c.startSeconds) && IsWholeMillis(c.endSeconds)
    requires sep == ',' || sep == '.'
    ensures ValidFields(TimeFields(c.startSeconds)) && ValidFields(TimeFields(c.endSeconds))
    ensures CueOf(TimeLineMatch(TimeFields(c.startSeconds), " ", " ", TimeFields(c.endSeconds)), sep, c.text) == c
  {
    var r := CueOf(TimeLineMatch(TimeFields(c.startSeconds), " ", " ", TimeFields(c.endSeconds)), sep, c.text);
    assert r.startSeconds == c.startSeconds && r.endSeconds == c.endSeconds;
  }

  // ---------------------------------------------------------------------------
  // Blocks of lines
  // ---------------------------------------------------------------------------

  /** What splitting needs of one written block: a block in the sense of
      IsBlock that also starts with a digit and ends in a character strip keeps. */
  predicate Chunk(b: string) {
    IsBlock(b) && IsDigit(b[0]) && !IsSpace(b[|b| - 1])
  }

  /** A run of newlines that the block pattern consumes whole. */
  predicate Gap(g: string) {
    |g| >= 2 && AllNewlines(g)
  }

  /** A join of parts ends with the last character of its last part. */
  lemma {:induction false} JoinLast(parts: seq<string>, sep: string)
    requires |parts| >= 1 && parts[|parts| - 1] != []
    ensures var j := Join(parts, sep);
            |j| > 0 && j[|j| - 1] == parts[|parts| - 1][|parts[|parts| - 1]| - 1]
    decreases |parts|
  {
    if |parts| > 1 {
      JoinLast(parts[1..], sep);
    }
  }

  /** Lines that start with a digit and end in text strip keeps make a block
      that splitting leaves whole. */
  lemma LinesBlock(lines: seq<string>)
    requires |lines| >= 1 && forall k :: 0 <= k < |lines| ==> lines[k] != [] && '\n' !in lines[k]
    requires IsDigit(lines[0][0]) && !IsSpace(lines[|lines| - 1][|lines[|lines| - 1]| - 1])
    ensures Chunk(Join(lines, "\n"))
  {
    var b := Join(lines, "\n");
    JoinHead(lines, "\n");
    JoinLast(lines, "\n");
    assert b[0] == lines[0][0];
    JoinLinesNoBreak(lines);
  }

  /** Such lines are left alone by strip and come back from split line by line. */
  lemma LinesSplit(lines: seq<string>)
    requires |lines| >= 1 && forall k :: 0 <= k < |lines| ==> lines[k] != [] && '\n' !in lines[k]
    requires IsDigit(lines[0][0]) && !IsSpace(lines[|lines| - 1][|lines[|lines| - 1]| - 1])
    ensures BlockLines(Join(lines, "\n")) == lines
  {
    var b := Join(lines, "\n");
    JoinHead(lines, "\n");
    JoinLast(lines, "\n");
    assert b[0] == lines[0][0];
    TrimOfTrimmed(b);
    SplitJoin(lines, '\n');
  }

  lemma SrtLinesShape(start: Fields, end: Fields, text: string, index: nat)
    requires ValidFields(start) && ValidFields(end) && TextLine(text)
    ensures var lines := SrtLines(start, end, text, index);
            && (forall k :: 0 <= k < |lines| ==> lines[k] != [] && '\n' !in lines[k])
            && IsDigit(lines[0][0]) && !IsSpace(lines[|lines| - 1][|lines[|lines| - 1]| - 1])
  {
    var idx := NatToString(index);
    assert '\n' !in idx;
    TimeLineShape(start, end, ',');
  }

  /** parse_srt's block step on a written chunk gives the record of its time
      line and text. */
  lemma SrtLinesParse(start: Fields, end: Fields, text: string, index: nat, b: string)
    requires ValidFields(start) && ValidFields(end) && TextLine(text) && !Contains(text, "-->")
    requires b == Join(SrtLines(start, end, text, index), "\n")
    ensures ParseSrtBlock(b) == Some(CueOf(TimeLineMatch(start, " ", " ", end), ',', text))
  {
    var lines := SrtLines(start, end, text, index);
    SrtLinesRead(start, end, text, index);
    SpacedMatch(start, end);
    SrtBlockFromMatch(b, lines, TimeLineMatch(start, " ", " ", end), text);
  }

  /** How parse_srt sees a written chunk: its lines, the arrow on the second
      one, the text after it, and the match of the time line. */
  lemma SrtLinesRead(start: Fields, end: Fields, text: string, index: nat)
    requires ValidFields(start) && ValidFields(end) && TextLine(text) && !Contains(text, "-->")
    ensures var lines := SrtLines(start, end, text, index);
            && BlockLines(Join(lines, "\n")) == lines && |lines| >= 2
            && (forall k :: 0 <= k < |lines| ==> '\n' !in lines[k])
            && Contains(lines[1], "-->") && text == SrtText(lines)
            && MatchTimeLine(lines[1], ',') == Some(TimeLineMatch(start, " ", " ", end))
  {
    var lines := SrtLines(start, end, text, index);
    SrtLinesShape(start, end, text, index);
    LinesSplit(lines);
    TimeLineShape(start, end, ',');
    TimeLineMatches(start, end, ',');
    if text != "" {
      assert lines[2..] == [text];
      assert JoinFrom(lines, 2) == text;
    }
  }

  /** parse_srt's block step once its time line is known to match. */
  lemma SrtBlockFromMatch(b: string, lines: seq<string>, m: TimeLineMatch, text: string)
    requires ValidMatch(m)
    requires BlockLines(b) == lines && |lines| >= 2 && text == SrtText(lines)
    requires MatchTimeLine(SrtTimeLine(lines), ',') == Some(m)
    ensures ParseSrtBlock(b) == Some(CueOf(m, ',', text))
  {
  }

  lemma VttLinesParse(start: Fields, end: Fields, text: string)
    requires ValidFields(start) && ValidFields(end) && TextLine(text) && text != ""
    ensures Chunk(Join(VttLines(start, end, text), "\n"))
    ensures ParseVttBlock(Join(VttLines(start, end, text), "\n"))
            == Some(CueOf(TimeLineMatch(start, " ", " ", end), '.', text))
  {
    var tl := TimeLineFor(start, end, '.');
    var m := TimeLineMatch(start, " ", " ", end);
    TimeLineShape(start, end, '.');
    VttTwoLines(tl, text);
    TimeLineMatches(start, end, '.');
    SpacedMatch(start, end);
    VttBlockFromLines(Join([tl, text], "\n"), tl, m, text);
  }

  /** parse_vtt's block step for a two-line block. The time line is taken as
      an opaque string here, so that its written form is not unfolded. */
  lemma VttBlockFromLines(b: string, tl: string, m: TimeLineMatch, text: string)
    requires ValidMatch(m) && b == Join([tl, text], "\n")
    requires BlockLines(b) == [tl, text] && FirstArrow([tl, text], 0) == Some(0) && JoinFrom([tl, text], 1) == text
    requires MatchTimeLine(tl, '.') == Some(m)
    ensures ParseVttBlock(b) == Some(CueOf(m, '.', text))
  {
    VttMatchedBlock(b, [tl, text], 0, m, text);
  }

  /** A time line followed by one text line is a block of exactly those two
      lines, its first arrow is on the time line and its text is that line. */
  lemma VttTwoLines(tl: string, text: string)
    requires tl != [] && '\n' !in tl && IsDigit(tl[0]) && Contains(tl, "-->")
    requires TextLine(text) && text != ""
    ensures Chunk(Join([tl, text], "\n"))
    ensures BlockLines(Join([tl, text], "\n")) == [tl, text]
    ensures FirstArrow([tl, text], 0) == Some(0)
    ensures JoinFrom([tl, text], 1) == text
  {
    LinesBlock([tl, text]);
    LinesSplit([tl, text]);
    TwoLinesText(tl, text);
  }

  /** The text after the time line of a two-line block is its second line. */
  lemma TwoLinesText(tl: string, text: string)
    requires '\n' !in tl && '\n' !in text
    ensures JoinFrom([tl, text], 1) == text
  {
    assert [tl, text][1..] == [text];
  }

  // ---------------------------------------------------------------------------
  // One cue
  // ---------------------------------------------------------------------------

  /** The SRT block of a cue is its lines joined, the time line being
      format_time's fields. */
  lemma SrtBlockIsLines(c: Cue, index: nat)
    requires WellFormed(c)
    ensures SrtBlock(c, index) == Join(SrtLines(TimeFields(c.startSeconds), TimeFields(c.endSeconds), c.text, index), "\n")
  {
    var tl := TimeLineOf(c.startTime, c.endTime);
    assert TimeLineFor(TimeFields(c.startSeconds), TimeFields(c.endSeconds), ',') == tl;
    ThreeLinesJoin(NatToString(index), tl, c.text);
  }

  /** Two or three lines joined with newlines. */
  lemma ThreeLinesJoin(a: string, b: string, text: string)
    ensures Join([a, b] + (if text == "" then [] else [text]), "\n")
            == a + "\n" + b + (if text == "" then "" else "\n" + text)
  {
    var ls := [a, b] + (if text == "" then [] else [text]);
    if text == "" {
      assert ls[1..] == [b];
    } else {
      assert ls[1..] == [b, text];
      assert ls[1..][1..] == [text];
      assert Join(ls[1..], "\n") == b + "\n" + text;
      SeqAssoc(a + "\n", b, "\n" + text);
    }
  }

  /** Concatenation regrouped, as a lemma so that callers instantiate it on
      exactly the three strings meant. */
  lemma SeqAssoc(a: string, b: string, c: string)
    ensures a + (b + c) == a + b + c
  {
  }

  lemma SrtBlockShape(c: Cue, index: nat)
    requires SrtWritable(c)
    ensures Chunk(SrtBlock(c, index)) && Gap(SrtGap(c))
  {
    var fs := TimeFields(c.startSeconds);
    var fe := TimeFields(c.endSeconds);
    SrtBlockIsLines(c, index);
    SrtLinesShape(fs, fe, c.text, index);
    LinesBlock(SrtLines(fs, fe, c.text, index));
    GapShape(c);
  }

  /** The separator after a written SRT block is a gap. Stated apart from
      SrtBlockShape so that its proof does not see the block's lines. */
  lemma GapShape(c: Cue)
    ensures Gap(SrtGap(c))
  {
  }

  /** parse_srt's block step gives back the cue a chunk was written from. */
  lemma SrtBlockParses(c: Cue, index: nat)
    requires SrtWritable(c)
    ensures ParseBlock(SrtBlock(c, index), Srt) == Some(c)
  {
    SrtBlockIsLines(c, index);
    CueFromFields(c, ',');
    SrtLinesParse(TimeFields(c.startSeconds), TimeFields(c.endSeconds), c.text, index, SrtBlock(c, index));
  }

  lemma VttBlockShape(c: Cue)
    requires VttWritable(c)
    ensures Chunk(VttBlock(c))
  {
    CueFromFields(c, '.');
    VttLinesParse(TimeFields(c.startSeconds), TimeFields(c.endSeconds), c.text);
  }

  /** parse_vtt's block step gives back the cue a block was written from. */
  lemma VttBlockParses(c: Cue)
    requires VttWritable(c)
    ensures ParseBlock(VttBlock(c), Vtt) == Some(c)
  {
    CueFromFields(c, '.');
    VttLinesParse(TimeFields(c.startSeconds), TimeFields(c.endSeconds), c.text);
  }

  // ---------------------------------------------------------------------------
  // Whole files
  // ---------------------------------------------------------------------------

  lemma SrtChunkShape(c: Cue, index: nat)
    ensures SrtChunk(c, index) == SrtBlock(c, index) + SrtGap(c)
  {
  }

  /** The written file is the layout of the chunks' blocks followed by the
      newlines of the last chunk. */
  lemma {:induction false} SerializeLayout(cues: seq<Cue>, first: nat)
    requires |cues| >= 1
    ensures SerializeFrom(cues, first)
            == Layout(SrtBlocks(cues, first), SrtGaps(cues)) + SrtGap(cues[|cues| - 1])
    decreases |cues|
  {
    var head := SrtBlock(cues[0], first) + SrtGap(cues[0]);
    SerializeStep(cues, first);
    if |cues| == 1 {
      assert SerializeFrom(cues[1..], first + 1) == "";
    } else {
      var rest := cues[1..];
      var bs := SrtBlocks(cues, first);
      var gs := SrtGaps(cues);
      SerializeLayout(rest, first + 1);
      BlocksTail(cues, first);
      assert rest[|rest| - 1] == cues[|cues| - 1];
      assert Layout(bs, gs) == head + Layout(bs[1..], gs[1..]);
      SeqAssoc(head, Layout(bs[1..], gs[1..]), SrtGap(cues[|cues| - 1]));
    }
  }

  /** The first chunk of a written file, split into its block and its newlines. */
  lemma SerializeStep(cues: seq<Cue>, first: nat)
    requires |cues| >= 1
    ensures SerializeFrom(cues, first) == SrtBlock(cues[0], first) + SrtGap(cues[0]) + SerializeFrom(cues[1..], first + 1)
  {
    SrtChunkShape(cues[0], first);
  }

  lemma BlocksTail(cues: seq<Cue>, first: nat)
    requires |cues| >= 1
    ensures SrtBlocks(cues, first)[1..] == SrtBlocks(cues[1..], first + 1)
    ensures SrtGaps(cues)[1..] == SrtGaps(cues[1..])
    ensures SrtBlocks(cues, first)[0] == SrtBlock(cues[0], first) && SrtGaps(cues)[0] == SrtGap(cues[0])
  {
    assert SrtBlocks(cues, first)[1..] == SrtBlocks(cues[1..], first + 1);
    assert SrtGaps(cues)[1..] == SrtGaps(cues[1..]);
  }

  lemma {:induction false} LayoutEnds(bs: seq<string>, gaps: seq<string>)
    requires |bs| == |gaps| >= 1 && forall k :: 0 <= k < |bs| ==> |bs[k]| > 0
    ensures var s := Layout(bs, gaps);
            var last := bs[|bs| - 1];
            |bs[0]| > 0 && |last| > 0 && |s| > 0 && s[0] == bs[0][0] && s[|s| - 1] == last[|last| - 1]
    decreases |bs|
  {
    if |bs| > 1 {
      LayoutEnds(bs[1..], gaps[1..]);
    }
  }

  /** Stripping the layout followed by trailing whitespace leaves the layout. */
  lemma LayoutTrimmed(bs: seq<string>, gaps: seq<string>, w: string)
    requires |bs| == |gaps| >= 1 && forall k :: 0 <= k < |bs| ==> |bs[k]| > 0
    requires IsDigit(bs[0][0])
    requires var last := bs[|bs| - 1]; !IsSpace(last[|last| - 1])
    requires AllNewlines(w)
    ensures Trim(Layout(bs, gaps) + w) == Layout(bs, gaps)
  {
    var s := Layout(bs, gaps);
    assert AllSpace(w) by {
      forall i | 0 <= i < |w| ensures IsSpace(w[i]) { assert w[i] == '\n'; }
    }
    LayoutEnds(bs, gaps);
    assert (s + w)[0] == s[0];
    TrimStartSpaces("", s + w);
    assert "" + (s + w) == s + w;
    TrimEndSpaces(s, w);
    TrimEndKeeps(s);
  }

  /** re.split cuts the layout back into its blocks. */
  lemma {:induction false} LayoutSplits(bs: seq<string>, gaps: seq<string>)
    requires |bs| == |gaps| >= 1
    requires forall k :: 0 <= k < |bs| ==> Chunk(bs[k]) && Gap(gaps[k])
    ensures SplitBlocks(Layout(bs, gaps)) == bs
    decreases |bs|
  {
    if |bs| == 1 {
      SplitBlocksSingle(bs[0]);
    } else {
      var rest := Layout(bs[1..], gaps[1..]);
      assert forall k :: 0 <= k < |bs[1..]| ==> Chunk(bs[1..][k]);
      LayoutEnds(bs[1..], gaps[1..]);
      SplitBlocksCons(bs[0], gaps[0], rest);
      LayoutSplits(bs[1..], gaps[1..]);
      assert bs == [bs[0]] + bs[1..];
    }
  }

  /** Blocks joined by blank lines: strip leaves the join alone. */
  lemma JoinedChunksTrimmed(bs: seq<string>)
    requires |bs| >= 1 && |bs[0]| > 0 && IsDigit(bs[0][0])
    requires var last := bs[|bs| - 1]; |last| > 0 && !IsSpace(last[|last| - 1])
    ensures Trim("\n" + Join(bs, "\n\n")) == Join(bs, "\n\n")
  {
    var body := Join(bs, "\n\n");
    JoinHead(bs, "\n\n");
    JoinLast(bs, "\n\n");
    assert body[0] == body[..|bs[0]|][0];
    TrimStartSpaces("\n", body);
    TrimEndKeeps(body);
  }

  lemma SrtBlocksParse(cues: seq<Cue>, first: nat)
    requires forall k :: 0 <= k < |cues| ==> SrtWritable(cues[k])
    ensures ParseBlocks(SrtBlocks(cues, first), Srt) == cues
  {
    var bs := SrtBlocks(cues, first);
    forall k | 0 <= k < |bs|
      ensures ParseBlock(bs[k], Srt) == Some(cues[k])
    {
      SrtBlockAt(cues, first, k);
    }
    ParseBlocksAllPresent(bs, Srt, cues);
  }

  lemma SrtBlockAt(cues: seq<Cue>, first: nat, k: nat)
    requires k < |cues| && SrtWritable(cues[k])
    ensures ParseBlock(SrtBlocks(cues, first)[k], Srt) == Some(cues[k])
  {
    BlockAt(cues, first, k);
    WrittenBlockParses(SrtBlocks(cues, first)[k], cues[k], first + k);
  }

  /** SrtBlockParses for a block already known to be the one written for `c`. */
  lemma WrittenBlockParses(b: string, c: Cue, index: nat)
    requires SrtWritable(c) && b == SrtBlock(c, index)
    ensures ParseBlock(b, Srt) == Some(c)
  {
    SrtBlockParses(c, index);
  }

  /** When every block parses, the records are all of them, in order. */
  lemma ParseBlocksAllPresent(bs: seq<string>, format: Format, cues: seq<Cue>)
    requires |bs| == |cues| && forall k :: 0 <= k < |bs| ==> ParseBlock(bs[k], format) == Some(cues[k])
    ensures ParseBlocks(bs, format) == cues
  {
    KeepAllPresent(ParseEach(bs, format), cues);
  }

  /** When every result is present, Keep returns all of their values. */
  lemma {:induction false} KeepAllPresent<T>(rs: seq<Option<T>>, xs: seq<T>)
    requires |rs| == |xs| && forall k :: 0 <= k < |rs| ==> rs[k] == Some(xs[k])
    ensures Keep(rs) == xs
    decreases |rs|
  {
    if |rs| > 0 {
      KeepAllPresent(rs[1..], xs[1..]);
      assert xs == [xs[0]] + xs[1..];
    }
  }

  /** Content that strips to nothing gives no records. */
  lemma NothingFromEmpty(format: Format)
    ensures ParseBlocks(SplitBlocks(""), format) == []
  {
    assert SplitBlocks("") == [""];
    assert BlockLines("") == [""];
    ParseBlocksSingle("", format);
  }

  /** The header line and its newline are removed, and only they. */
  lemma HeaderStripped(rest: string)
    ensures StripHeader("WEBVTT" + "\n" + rest) == rest
  {
    var content := "WEBVTT" + "\n" + rest;
    assert content[6] == '\n';
    assert forall k :: 0 <= k < 6 ==> content[k] != '\n';
    assert FirstNewline(content, 0) == Some(6);
    assert content[7..] == rest;
  }

  // ---------------------------------------------------------------------------
  // What does not come back
  // ---------------------------------------------------------------------------

  /** An SRT block that lacks its index line: the time line is taken from the
      first line, but the text is only looked for from the third line on, so
      the one text line is lost. */
  lemma SrtMissingIndexLosesText(start: Fields, end: Fields, text: string)
    requires ValidFields(start) && ValidFields(end) && TextLine(text) && text != "" && !Contains(text, "-->")
    ensures ParseSrtBlock(TimeLineFor(start, end, ',') + "\n" + text)
            == Some(CueOf(TimeLineMatch(start, " ", " ", end), ',', ""))
  {
    MissingIndexLines(start, end, text);
    SpacedMatch(start, end);
    UnindexedBlock(TimeLineFor(start, end, ','), text, TimeLineMatch(start, " ", " ", end));
  }

  /** A block of a time line and one text line that holds no arrow. */
  lemma UnindexedBlock(tl: string, text: string, m: TimeLineMatch)
    requires ValidMatch(m) && !Contains(text, "-->")
    requires BlockLines(tl + "\n" + text) == [tl, text]
    requires MatchTimeLine(tl, ',') == Some(m)
    ensures ParseSrtBlock(tl + "\n" + text) == Some(CueOf(m, ',', ""))
  {
    var lines := [tl, text];
    TimeLineFirst(lines);
    TwoLinesNoText(lines);
    SrtBlockFromMatch(tl + "\n" + text, lines, m, "");
  }

  /** How parse_srt sees a time line followed by one text line. */
  lemma MissingIndexLines(start: Fields, end: Fields, text: string)
    requires ValidFields(start) && ValidFields(end) && TextLine(text) && text != "" && !Contains(text, "-->")
    ensures var lines := [TimeLineFor(start, end, ','), text];
            && BlockLines(TimeLineFor(start, end, ',') + "\n" + text) == lines
            && MatchTimeLine(lines[0], ',') == Some(TimeLineMatch(start, " ", " ", end))
  {
    var lines := [TimeLineFor(start, end, ','), text];
    assert lines[1..] == [text];
    assert Join(lines, "\n") == TimeLineFor(start, end, ',') + "\n" + text;
    TimeLineShape(start, end, ',');
    var tl := TimeLineFor(start, end, ',');
    assert tl != [] && '\n' !in tl && IsDigit(tl[0]);
    assert text != [] && '\n' !in text && !IsSpace(text[|text| - 1]);
    assert forall k :: 0 <= k < |lines| ==> lines[k] != [] && '\n' !in lines[k];
    LinesSplit(lines);
    TimeLineMatches(start, end, ',');
    assert BlockLines(tl + "\n" + text) == lines;
  }

  lemma TwoLinesNoText(lines: seq<string>)
    requires |lines| == 2 && forall k :: 0 <= k < |lines| ==> '\n' !in lines[k]
    ensures SrtText(lines) == ""
  {
  }

  lemma TimeLineFirst(lines: seq<string>)
    requires |lines| >= 2 && !Contains(lines[1], "-->")
    ensures SrtTimeLine(lines) == lines[0]
  {
  }

  /** A WebVTT cue with empty text is written as a lone time line, which the
      parser drops. */
  lemma VttEmptyTextDropped(start: Fields, end: Fields)
    requires ValidFields(start) && ValidFields(end)
    ensures ParseVttBlock(Join(VttLines(start, end, ""), "\n")) == None
  {
    var tl := TimeLineFor(start, end, '.');
    var b := Join(VttLines(start, end, ""), "\n");
    var ls := VttLines(start, end, "");
    TimeLineShape(start, end, '.');
    assert ls[1..] == [""];
    assert Join(ls[1..], "\n") == "";
    assert b == tl + "\n" + "";
    assert b == tl + "\n";
    assert b[0] == tl[0];
    TrimStartSpaces("", b);
    assert "" + b == b;
    TrimEndSpaces(tl, "\n");
    TrimEndKeeps(tl);
    assert Trim(b) == tl;
    OneLineBlockDropped(b, Vtt);
  }
}

=== FILE: subtitles.dfy ===
/** parse_srt, parse_vtt and the format dispatch of subtitle_processor.py:
    subtitle content in, the list of cue records out. */
module Subtitles {
  import opened Wrappers
  import opened Text
  import opened Timestamp
  import opened TimeLine
  import opened Blocks

  /** One subtitle record, the dictionary the parsers append: display times,
      times in seconds, and the text. */
  datatype Cue = Cue(startTime: string, endTime: string, startSeconds: real, endSeconds: real, text: string)

  /** What every parsed cue satisfies: non-negative times, display times that
      are format_time of the seconds, and a single line of text. */
  predicate WellFormed(c: Cue) {
    c.startSeconds >= 0.0 && c.endSeconds >= 0.0
    && c.startTime == FormatTime(c.startSeconds) && c.endTime == FormatTime(c.endSeconds)
    && '\n' !in c.text
  }

  /** The record built from a time-line match: both timestamps go through
      parse_srt_time (which cannot fail on text the pattern matched) and then
      through format_time. */
  function CueOf(m: TimeLineMatch, sep: char, text: string): (c: Cue)
    requires ValidMatch(m) && (sep == ',' || sep == '.')
    requires '\n' !in text
    ensures WellFormed(c) && c.text == text
    ensures c.startSeconds == FieldsValue(m.start) && c.endSeconds == FieldsValue(m.end)
  {
    ParseComposed(m.start, sep);
    ParseComposed(m.end, sep);
    var s := ParseSrtTime(Compose(m.start, sep)).value;
    var e := ParseSrtTime(Compose(m.end, sep)).value;
    Cue(FormatTime(s), FormatTime(e), s, e, text)
  }

  /** `block.strip().split('\n')`. */
  function BlockLines(block: string): (lines: seq<string>)
    ensures |lines| >= 1 && forall k :: 0 <= k < |lines| ==> '\n' !in lines[k]
    ensures Join(lines, "\n") == Trim(block)
  {
    Split(Trim(block), '\n')
  }

  /** `' '.join(lines[from:])`: a single line, since no line holds a newline. */
  function JoinFrom(lines: seq<string>, from: nat): (text: string)
    requires from <= |lines| && forall k :: 0 <= k < |lines| ==> '\n' !in lines[k]
    ensures '\n' !in text
  {
    JoinExcludes(lines[from..], " ", '\n');
    Join(lines[from..], " ")
  }

  // ---------------------------------------------------------------------------
  // SRT
  // ---------------------------------------------------------------------------

  /** The second line when it holds an arrow, the first line otherwise. */
  function SrtTimeLine(lines: seq<string>): string
    requires |lines| >= 2
  {
    if Contains(lines[1], "-->") then lines[1] else lines[0]
  }

  /** The lines from the third on, joined with spaces, unless there is no
      third line or it holds an arrow: then the text is empty. */
  function SrtText(lines: seq<string>): (text: string)
    requires forall k :: 0 <= k < |lines| ==> '\n' !in lines[k]
    ensures '\n' !in text
  {
    if |lines| > 2 && !Contains(lines[2], "-->") then JoinFrom(lines, 2) else ""
  }

  /** One SRT block. The time line is the second line when that holds an
      arrow and the first line otherwise; the text is the rest from the third
      line on, or empty when there is no third line or the third line holds an
      arrow. A block of fewer than two lines, or whose time line does not
      start with the pattern, gives no record. */
  function ParseSrtBlock(block: string): (r: Option<Cue>)
    ensures r.Some? ==> WellFormed(r.value)
    ensures r.Some? ==> |BlockLines(block)| >= 2
  {
    var lines := BlockLines(block);
    if |lines| < 2 then None
    else
      var timeLine := SrtTimeLine(lines);
      var text := SrtText(lines);
      MatchTimeLineSound(timeLine, ',');
      match MatchTimeLine(timeLine, ',')
      case None => None
      case Some(m) => Some(CueOf(m, ',', text))
  }

  // ---------------------------------------------------------------------------
  // WebVTT
  // ---------------------------------------------------------------------------

  /** The index of the first line at or after `i` that holds an arrow: the
      `for ... break` search of parse_vtt. */
  function FirstArrow(lines: seq<string>, i: nat): (r: Option<nat>)
    requires i <= |lines|
    ensures r.Some? ==> i <= r.value < |lines| && Contains(lines[r.value], "-->")
    ensures forall k :: i <= k < |lines| && (r.None? || k < r.value) ==> !Contains(lines[k], "-->")
    decreases |lines| - i
  {
    if i == |lines| then None
    else if Contains(lines[i], "-->") then Some(i)
    else FirstArrow(lines, i + 1)
  }

  /** One WebVTT block: the first line holding an arrow is the time line and
      every line after it is text. */
  function ParseVttBlock(block: string): (r: Option<Cue>)
    ensures r.Some? ==> WellFormed(r.value)
    ensures r.Some? ==> |BlockLines(block)| >= 2
  {
    var lines := BlockLines(block);
    if |lines| < 2 then None
    else
      match FirstArrow(lines, 0)
      case None => None
      case Some(i) =>
        var text := JoinFrom(lines, i + 1);
        MatchTimeLineSound(lines[i], '.');
        match MatchTimeLine(lines[i], '.')
        case None => None
        case Some(m) => Some(CueOf(m, '.', text))
  }

  /** The first newline of `s`, if any. */
  function FirstNewline(s: string, i: nat): (r: Option<nat>)
    requires i <= |s|
    ensures r.Some? ==> i <= r.value < |s| && s[r.value] == '\n'
    ensures forall k :: i <= k < |s| && (r.None? || k < r.value) ==> s[k] != '\n'
    decreases |s| - i
  {
    if i == |s| then None
    else if s[i] == '\n' then Some(i)
    else FirstNewline(s, i + 1)
  }

  /** `re.sub(r'^WEBVTT.*\n', '', content)`: when the content starts with
      WEBVTT, its first line and the newline ending it are removed; content
      that does not start with WEBVTT, or has no newline, is left alone. */
  function StripHeader(content: string): (r: string)
    ensures |r| <= |content| && r == content[|content| - |r|..]
    ensures r != content <==> StartsWith(content, "WEBVTT") && '\n' in content
    ensures r != content ==>
              var cut := content[..|content| - |r|];
              StartsWith(cut, "WEBVTT") && cut[|cut| - 1] == '\n' && '\n' !in cut[..|cut| - 1]
  {
    if !StartsWith(content, "WEBVTT") then content
    else
      match FirstNewline(content, 0)
      case None => content
      case Some(i) =>
        assert content[..i + 1][..i] == content[..i];
        assert content[..i + 1][..6] == content[..6];
        content[i + 1..]
  }

  // ---------------------------------------------------------------------------
  // Whole files
  // ---------------------------------------------------------------------------

  datatype Format = Srt | Vtt

  function ParseBlock(block: string, format: Format): (r: Option<Cue>)
    ensures r.Some? ==> WellFormed(r.value)
  {
    match format
    case Srt => ParseSrtBlock(block)
    case Vtt => ParseVttBlock(block)
  }

  /** The values of the results that are present, in order: the
      `if time_match: subtitles.append(...)` of both parsers. */
  function Keep<T>(rs: seq<Option<T>>): (r: seq<T>)
    ensures |r| <= |rs|
    ensures forall k :: 0 <= k < |r| ==> Some(r[k]) in rs
    decreases |rs|
  {
    if |rs| == 0 then []
    else
      var tail := Keep(rs[1..]);
      assert forall k :: 0 <= k < |tail| ==> Some(tail[k]) in rs by {
        forall k | 0 <= k < |tail| ensures Some(tail[k]) in rs {
          var j :| 0 <= j < |rs[1..]| && rs[1..][j] == Some(tail[k]);
          assert rs[j + 1] == Some(tail[k]);
        }
      }
      match rs[0]
      case None => tail
      case Some(c) => [c] + tail
  }

  /** Each block parsed on its own, in order. */
  function ParseEach(blocks: seq<string>, format: Format): (rs: seq<Option<Cue>>)
    ensures |rs| == |blocks|
    ensures forall k :: 0 <= k < |blocks| ==> rs[k] == ParseBlock(blocks[k], format)
    ensures forall k :: 0 <= k < |rs| && rs[k].Some? ==> WellFormed(rs[k].value)
    decreases |blocks|
  {
    if |blocks| == 0 then []
    else
      var head := ParseBlock(blocks[0], format);
      var tail := ParseEach(blocks[1..], format);
      assert forall k :: 1 <= k < |tail| + 1 ==> ([head] + tail)[k] == tail[k - 1];
      [head] + tail
  }

  /** The records of the blocks that parse, in block order; the others are
      skipped silently. */
  function ParseBlocks(blocks: seq<string>, format: Format): (r: seq<Cue>)
    ensures |r| <= |blocks|
    ensures forall k :: 0 <= k < |r| ==> WellFormed(r[k])
  {
    var rs := ParseEach(blocks, format);
    Keep(rs)
  }

  /** parse_srt. */
  function ParseSrt(content: string): (r: seq<Cue>)
    ensures |r| <= |SplitBlocks(Trim(content))|
    ensures forall k :: 0 <= k < |r| ==> WellFormed(r[k])
  {
    ParseBlocks(SplitBlocks(Trim(content)), Srt)
  }

  /** parse_vtt. */
  function ParseVtt(content: string): (r: seq<Cue>)
    ensures |r| <= |SplitBlocks(Trim(StripHeader(content)))|
    ensures forall k :: 0 <= k < |r| ==> WellFormed(r[k])
  {
    ParseBlocks(SplitBlocks(Trim(StripHeader(content))), Vtt)
  }

  /** When parse_srt keeps a block: exactly when it has two lines or more and
      its time line matches the pattern with ','. The record is then built from
      that match and the text from the third line on, so by CueOf it carries
      the two matched times and that text. */
  lemma SrtBlockOutcome(block: string)
    ensures |BlockLines(block)| < 2 ==> ParseSrtBlock(block) == None
    ensures var lines := BlockLines(block);
            |lines| >= 2 ==>
              match MatchTimeLine(SrtTimeLine(lines), ',')
              case None => ParseSrtBlock(block) == None
              case Some(m) => ValidMatch(m) && ParseSrtBlock(block) == Some(CueOf(m, ',', SrtText(lines)))
  {
    var lines := BlockLines(block);
    if |lines| >= 2 {
      MatchTimeLineSound(SrtTimeLine(lines), ',');
    }
  }

  /** When parse_vtt drops a block before looking at a time line: it has
      fewer than two lines, or no line holds an arrow. VttArrowOutcome covers
      the remaining blocks. */
  lemma VttBlockOutcome(block: string)
    ensures |BlockLines(block)| < 2 ==> ParseVttBlock(block) == None
    ensures var lines := BlockLines(block);
            |lines| >= 2 && FirstArrow(lines, 0) == None ==> ParseVttBlock(block) == None
  {
  }

  /** A WebVTT block of two lines or more whose first arrow is on line `i`:
      it is kept exactly when that line matches the pattern with '.', and the
      record is built from that match and every later line, joined with
      spaces, so by CueOf it carries the two matched times and that text. */
  lemma VttArrowOutcome(block: string, lines: seq<string>, i: nat)
    requires lines == BlockLines(block) && |lines| >= 2 && i < |lines| && FirstArrow(lines, 0) == Some(i)
    ensures match MatchTimeLine(lines[i], '.')
            case None => ParseVttBlock(block) == None
            case Some(m) => ValidMatch(m) && ParseVttBlock(block) == Some(CueOf(m, '.', JoinFrom(lines, i + 1)))
  {
    MatchTimeLineSound(lines[i], '.');
    match MatchTimeLine(lines[i], '.')
    case None => VttUnmatchedBlock(block, lines, i);
    case Some(m) => VttMatchedBlock(block, lines, i, m, JoinFrom(lines, i + 1));
  }

  /** VttArrowOutcome's dropped case: the first arrow line does not match. */
  lemma VttUnmatchedBlock(block: string, lines: seq<string>, i: nat)
    requires lines == BlockLines(block) && |lines| >= 2 && i < |lines| && FirstArrow(lines, 0) == Some(i)
    requires MatchTimeLine(lines[i], '.') == None
    ensures ParseVttBlock(block) == None
  {
  }

  /** VttArrowOutcome's kept case, for a time line already known to match. */
  lemma VttMatchedBlock(block: string, lines: seq<string>, i: nat, m: TimeLineMatch, text: string)
    requires lines == BlockLines(block) && |lines| >= 2 && i < |lines| && FirstArrow(lines, 0) == Some(i)
    requires ValidMatch(m) && MatchTimeLine(lines[i], '.') == Some(m) && JoinFrom(lines, i + 1) == text
    ensures ParseVttBlock(block) == Some(CueOf(m, '.', text))
  {
  }

  /** The dispatch of parse_subtitle_file on content already read: WebVTT as
      soon as "WEBVTT" occurs anywhere in it, SRT otherwise. */
  function ParseSubtitleContent(content: string): (r: seq<Cue>)
    ensures forall k :: 0 <= k < |r| ==> WellFormed(r[k])
    ensures Contains(content, "WEBVTT") ==> r == ParseVtt(content)
    ensures !Contains(content, "WEBVTT") ==> r == ParseSrt(content)
  {
    if Contains(content, "WEBVTT") then ParseVtt(content) else ParseSrt(content)
  }

  // ---------------------------------------------------------------------------
  // Properties
  // ---------------------------------------------------------------------------

  /** Parsing a sequence of blocks is parsing each block on its own: the
      records of a concatenation are the concatenation of the records, and a
      single block gives its record when it parses and nothing otherwise. */
  lemma ParseBlocksAppend(a: seq<string>, b: seq<string>, format: Format)
    ensures ParseBlocks(a + b, format) == ParseBlocks(a, format) + ParseBlocks(b, format)
  {
    ParseEachAppend(a, b, format);
    KeepAppend(ParseEach(a, format), ParseEach(b, format));
  }

  lemma {:induction false} ParseEachAppend(a: seq<string>, b: seq<string>, format: Format)
    ensures ParseEach(a + b, format) == ParseEach(a, format) + ParseEach(b, format)
    decreases |a|
  {
    if |a| == 0 {
      assert a + b == b;
    } else {
      assert (a + b)[1..] == a[1..] + b;
      ParseEachAppend(a[1..], b, format);
    }
  }

  lemma ParseBlocksSingle(block: string, format: Format)
    ensures ParseBlocks([block], format)
            == match ParseBlock(block, format) case None => [] case Some(c) => [c]
  {
    assert ParseEach([block], format)[1..] == [];
  }

  lemma {:induction false} KeepAppend<T>(a: seq<Option<T>>, b: seq<Option<T>>)
    ensures Keep(a + b) == Keep(a) + Keep(b)
    decreases |a|
  {
    if |a| == 0 {
      assert a + b == b;
    } else {
      assert (a + b)[1..] == a[1..] + b;
      KeepAppend(a[1..], b);
    }
  }

  /** A block that is one line after stripping yields no record, in either
      format: in WebVTT a time line with no text after it is dropped. */
  lemma OneLineBlockDropped(block: string, format: Format)
    requires '\n' !in Trim(block)
    ensures ParseBlock(block, format) == None
  {
    SplitWithoutSeparator(Trim(block), '\n');
  }

  /** Content holding "WEBVTT" anywhere, even inside the text of an SRT cue,
      is parsed as WebVTT, whose time-line pattern needs '.' before the
      milliseconds. */
  lemma WebVttMarkerAnywhere(x: string, y: string)
    ensures ParseSubtitleContent(x + "WEBVTT" + y) == ParseVtt(x + "WEBVTT" + y)
  {
    ContainsInside(x, "WEBVTT", y);
  }
}

=== FILE: text.dfy ===
/** String helpers shared by the subtitle parser and the video job: the ASCII
    part of Python's character classes, decimal numerals, and the str methods
    split, join, strip and replace, each with the property that pins it down. */
module Text {

  // ---------------------------------------------------------------------------
  // Character classes
  // ---------------------------------------------------------------------------

  predicate IsDigit(c: char) { '0' <= c <= '9' }

  /** The ASCII characters that str.isspace, str.strip and the regex class \s
      treat as whitespace: space, \t \n \v \f \r and the separators 0x1C-0x1F. */
  predicate IsSpace(c: char) {
    c == ' ' || '\t' <= c <= '\r' || '\U{1C}' <= c <= '\U{1F}'
  }

  predicate AllDigits(s: string) { forall i :: 0 <= i < |s| ==> IsDigit(s[i]) }

  /** A non-empty run of decimal digits: what the regex \d+ matches. */
  predicate IsNumeral(s: string) { |s| > 0 && AllDigits(s) }

  predicate AllSpace(s: string) { forall i :: 0 <= i < |s| ==> IsSpace(s[i]) }

  predicate AllNewlines(s: string) { forall i :: 0 <= i < |s| ==> s[i] == '\n' }

  /** No leading and no trailing whitespace: what str.strip leaves alone. */
  predicate IsTrimmed(s: string) {
    |s| == 0 || (!IsSpace(s[0]) && !IsSpace(s[|s| - 1]))
  }

  // ---------------------------------------------------------------------------
  // Decimal numerals
  // ---------------------------------------------------------------------------

  function DigitValue(c: char): nat
    requires IsDigit(c)
  {
    c as int - '0' as int
  }

  function DigitChar(d: nat): (c: char)
    requires d < 10
    ensures IsDigit(c) && DigitValue(c) == d
  {
    ('0' as int + d) as char
  }

  function Pow10(n: nat): (r: nat)
    ensures r >= 1
  {
    if n == 0 then 1 else 10 * Pow10(n - 1)
  }

  /** The value of a decimal numeral, as int() reads it (leading zeros allowed). */
  function NumeralValue(s: string): nat
    requires AllDigits(s)
  {
    if |s| == 0 then 0 else 10 * NumeralValue(s[..|s| - 1]) + DigitValue(s[|s| - 1])
  }

  /** The shortest decimal numeral of `n`, as str(n) and the `d` format give it. */
  function NatToString(n: nat): (r: string)
    ensures IsNumeral(r)
    ensures NumeralValue(r) == n
    ensures |r| == 1 || r[0] != '0'
  {
    if n < 10 then [DigitChar(n)]
    else
      var prefix := NatToString(n / 10);
      var r := prefix + [DigitChar(n % 10)];
      assert r[..|r| - 1] == prefix;
      r
  }

  lemma {:induction false} NatToStringLength(n: nat, k: nat)
    requires 1 <= k && n < Pow10(k)
    ensures |NatToString(n)| <= k
    decreases k
  {
    if n >= 10 {
      assert k >= 2;
      NatToStringLength(n / 10, k - 1);
    }
  }

  function Zeros(k: nat): (z: string)
    ensures |z| == k && AllDigits(z)
    ensures forall i :: 0 <= i < k ==> z[i] == '0'
  {
    if k == 0 then "" else Zeros(k - 1) + "0"
  }

  lemma {:induction false} ZerosValue(k: nat)
    ensures NumeralValue(Zeros(k)) == 0
  {
    if k > 0 {
      assert Zeros(k)[..k - 1] == Zeros(k - 1);
      ZerosValue(k - 1);
    }
  }

  /** Leading zeros do not change a numeral's value. */
  lemma {:induction false} LeadingZerosValue(k: nat, d: string)
    requires AllDigits(d)
    ensures AllDigits(Zeros(k) + d)
    ensures NumeralValue(Zeros(k) + d) == NumeralValue(d)
    decreases |d|
  {
    var s := Zeros(k) + d;
    if |d| == 0 {
      assert s == Zeros(k);
      ZerosValue(k);
    } else {
      assert s[..|s| - 1] == Zeros(k) + d[..|d| - 1];
      LeadingZerosValue(k, d[..|d| - 1]);
    }
  }

  /** `n` written in decimal and left-padded with zeros to at least `width`
      characters, as the format specification `0<width>d` does: a value too
      wide for `width` is written in full, with no leading zero. */
  function ZeroPad(n: nat, width: nat): (r: string)
    ensures IsNumeral(r)
    ensures NumeralValue(r) == n
    ensures |r| >= width
    ensures 1 <= width && n < Pow10(width) ==> |r| == width
  {
    var d := NatToString(n);
    if |d| >= width then
      if 1 <= width && n < Pow10(width) then NatToStringLength(n, width); d else d
    else
      LeadingZerosValue(width - |d|, d);
      Zeros(width - |d|) + d
  }

  /** A value too wide for `width` is written in full: the padded numeral then
      has no leading zero unless it is the single digit "0". */
  lemma ZeroPadNoLeadingZero(n: nat, width: nat)
    ensures var r := ZeroPad(n, width);
            |r| == width || |r| == 1 || r[0] != '0'
  {
  }

  // ---------------------------------------------------------------------------
  // str.split, str.join, substring search, str.replace
  // ---------------------------------------------------------------------------

  /** `sep.join(parts)`. */
  function Join(parts: seq<string>, sep: string): string
  {
    if |parts| == 0 then ""
    else if |parts| == 1 then parts[0]
    else parts[0] + sep + Join(parts[1..], sep)
  }

  lemma JoinPrepend(a: string, p: string, ps: seq<string>, sep: string)
    ensures Join([a + p] + ps, sep) == a + Join([p] + ps, sep)
  {
    if |ps| > 0 {
      assert ([a + p] + ps)[1..] == ps;
      assert ([p] + ps)[1..] == ps;
    }
  }

  /** `s.split(sep)` for a one-character separator: the pieces between
      separators, none of which contains `sep`, and which join back to `s`. */
  function Split(s: string, sep: char): (parts: seq<string>)
    ensures |parts| >= 1
    ensures forall i :: 0 <= i < |parts| ==> sep !in parts[i]
    ensures Join(parts, [sep]) == s
  {
    if |s| == 0 then [""]
    else
      var rest := Split(s[1..], sep);
      if s[0] == sep then
        assert ([""] + rest)[1..] == rest;
        [""] + rest
      else
        assert rest == [rest[0]] + rest[1..];
        JoinPrepend([s[0]], rest[0], rest[1..], [sep]);
        [[s[0]] + rest[0]] + rest[1..]
  }

  /** A character that is in neither the parts nor the separator is not in
      their join. */
  lemma {:induction false} JoinExcludes(parts: seq<string>, sep: string, c: char)
    requires c !in sep && forall i :: 0 <= i < |parts| ==> c !in parts[i]
    ensures c !in Join(parts, sep)
    decreases |parts|
  {
    if |parts| > 1 {
      JoinExcludes(parts[1..], sep, c);
    }
  }

  lemma {:induction false} SplitWithoutSeparator(s: string, sep: char)
    requires sep !in s
    ensures Split(s, sep) == [s]
  {
    if |s| > 0 {
      SplitWithoutSeparator(s[1..], sep);
    }
  }

  lemma {:induction false} SplitAtSeparator(p: string, sep: char, t: string)
    requires sep !in p
    ensures Split(p + [sep] + t, sep) == [p] + Split(t, sep)
  {
    if |p| == 0 {
      assert p + [sep] + t == [sep] + t;
      assert ([sep] + t)[1..] == t;
    } else {
      assert (p + [sep] + t)[1..] == p[1..] + [sep] + t;
      SplitAtSeparator(p[1..], sep, t);
      assert [p[0]] + p[1..] == p;
    }
  }

  /** Splitting undoes joining when no part contains the separator. */
  lemma {:induction false} SplitJoin(parts: seq<string>, sep: char)
    requires |parts| >= 1
    requires forall i :: 0 <= i < |parts| ==> sep !in parts[i]
    ensures Split(Join(parts, [sep]), sep) == parts
  {
    if |parts| == 1 {
      SplitWithoutSeparator(parts[0], sep);
    } else {
      SplitJoin(parts[1..], sep);
      SplitAtSeparator(parts[0], sep, Join(parts[1..], [sep]));
      assert [parts[0]] + parts[1..] == parts;
    }
  }

  predicate StartsWith(s: string, prefix: string) {
    |prefix| <= |s| && s[..|prefix|] == prefix
  }

  /** `t in s` for strings: `t` occurs somewhere in `s`. */
  predicate Contains(s: string, t: string)
    decreases |s|
  {
    StartsWith(s, t) || (|s| > 0 && Contains(s[1..], t))
  }

  lemma {:induction false} ContainsInside(x: string, t: string, y: string)
    ensures Contains(x + t + y, t)
    decreases |x|
  {
    if |x| == 0 {
      assert x + t + y == t + y;
      assert (t + y)[..|t|] == t;
    } else {
      assert (x + t + y)[1..] == x[1..] + t + y;
      ContainsInside(x[1..], t, y);
    }
  }

  /** `s.replace(from, to)` for single characters. */
  function ReplaceChar(s: string, from: char, to: char): (r: string)
    ensures |r| == |s|
    ensures forall i :: 0 <= i < |s| ==> r[i] == (if s[i] == from then to else s[i])
  {
    if |s| == 0 then ""
    else [if s[0] == from then to else s[0]] + ReplaceChar(s[1..], from, to)
  }

  // ---------------------------------------------------------------------------
  // str.strip
  // ---------------------------------------------------------------------------

  /** Whitespace on both sides of a join is still whitespace. */
  lemma SpacesCons(c: char, t: string)
    requires IsSpace(c) && AllSpace(t)
    ensures AllSpace([c] + t)
  {
    assert forall i :: 0 < i < |t| + 1 ==> ([c] + t)[i] == t[i - 1];
  }

  lemma SpacesSnoc(t: string, c: char)
    requires AllSpace(t) && IsSpace(c)
    ensures AllSpace(t + [c])
  {
    assert forall i :: 0 <= i < |t| ==> (t + [c])[i] == t[i];
  }

  /** `s.lstrip()`: the suffix of `s` left after dropping leading whitespace. */
  function TrimStart(s: string): (r: string)
    ensures |r| <= |s| && r == s[|s| - |r|..]
    ensures AllSpace(s[..|s| - |r|])
    ensures |r| == 0 || !IsSpace(r[0])
  {
    if |s| > 0 && IsSpace(s[0]) then
      var r := TrimStart(s[1..]);
      SpacesCons(s[0], s[1..][..|s| - 1 - |r|]);
      assert s[..|s| - |r|] == [s[0]] + s[1..][..|s| - 1 - |r|];
      r
    else s
  }

  /** `s.rstrip()`: the prefix of `s` left after dropping trailing whitespace. */
  function TrimEnd(s: string): (r: string)
    ensures |r| <= |s| && r == s[..|r|]
    ensures AllSpace(s[|r|..])
    ensures |r| == 0 || !IsSpace(r[|r| - 1])
  {
    if |s| > 0 && IsSpace(s[|s| - 1]) then
      var r := TrimEnd(s[..|s| - 1]);
      SpacesSnoc(s[..|s| - 1][|r|..], s[|s| - 1]);
      assert s[|r|..] == s[..|s| - 1][|r|..] + [s[|s| - 1]];
      r
    else s
  }

  /** `s.strip()`. */
  function Trim(s: string): (r: string)
    ensures IsTrimmed(r) && |r| <= |s|
  {
    TrimEnd(TrimStart(s))
  }

  /** Text that is all whitespace strips to nothing. */
  lemma WhitespaceTrimmed(s: string)
    requires AllSpace(s)
    ensures Trim(s) == ""
  {
    var r := TrimStart(s);
    SpacesSuffix(s, |s| - |r|);
  }

  /** Every suffix of whitespace is whitespace. */
  lemma SpacesSuffix(s: string, k: nat)
    requires AllSpace(s) && k <= |s|
    ensures AllSpace(s[k..])
  {
    assert forall i :: 0 <= i < |s| - k ==> s[k..][i] == s[k + i];
  }

  lemma TrimOfTrimmed(s: string)
    requires IsTrimmed(s)
    ensures Trim(s) == s
  {
  }

  /** Leading whitespace put before `x` is stripped again. */
  lemma {:induction false} TrimStartSpaces(w: string, x: string)
    requires AllSpace(w) && (|x| == 0 || !IsSpace(x[0]))
    ensures TrimStart(w + x) == x
    decreases |w|
  {
    if |w| > 0 {
      assert (w + x)[1..] == w[1..] + x;
      TrimStartSpaces(w[1..], x);
    } else {
      assert w + x == x;
    }
  }

  lemma TrimEndKeeps(x: string)
    requires |x| == 0 || !IsSpace(x[|x| - 1])
    ensures TrimEnd(x) == x
  {
  }

  /** Trailing whitespace appended to `x` is stripped again. */
  lemma {:induction false} TrimEndSpaces(x: string, w: string)
    requires AllSpace(w)
    ensures TrimEnd(x + w) == TrimEnd(x)
    decreases |w|
  {
    if |w| > 0 {
      assert (x + w)[..|x + w| - 1] == x + w[..|w| - 1];
      TrimEndSpaces(x, w[..|w| - 1]);
    } else {
      assert x + w == x;
    }
  }

  /** Stripping the end only touches the last part once that part holds a
      non-space character. */
  lemma {:induction false} TrimEndAppend(x: string, y: string)
    requires |y| > 0 && !IsSpace(y[0])
    ensures TrimEnd(x + y) == x + TrimEnd(y)
    decreases |y|
  {
    if IsSpace(y[|y| - 1]) {
      assert (x + y)[..|x + y| - 1] == x + y[..|y| - 1];
      TrimEndAppend(x, y[..|y| - 1]);
    }
  }
}

=== FILE: time_line.dfy ===
/** The time-line regular expressions of subtitle_processor.py, written out as
    scanners: `(\d+:\d+:\d+,\d+)\s*-->\s*(\d+:\d+:\d+,\d+)` for SRT and the
    same with '.' for VTT, matched at the start of the line only (re.match).
    Every greedy repetition in these patterns is followed by a character it
    cannot consume, so the first match Python finds is the one these
    scanners find, without backtracking. */
module TimeLine {
  import opened Wrappers
  import opened Text
  import opened Timestamp

  predicate DigitsBetween(s: string, i: nat, j: nat)
    requires i <= j <= |s|
  {
    forall k :: i <= k < j ==> IsDigit(s[k])
  }

  predicate SpacesBetween(s: string, i: nat, j: nat)
    requires i <= j <= |s|
  {
    forall k :: i <= k < j ==> IsSpace(s[k])
  }

  /** Where a greedy `\d*` started at `i` stops. */
  function DigitEnd(s: string, i: nat): (j: nat)
    requires i <= |s|
    ensures i <= j <= |s|
    ensures j < |s| ==> !IsDigit(s[j])
    decreases |s| - i
  {
    if i < |s| && IsDigit(s[i]) then DigitEnd(s, i + 1) else i
  }

  /** Where a greedy `\s*` started at `i` stops. */
  function SpaceEnd(s: string, i: nat): (j: nat)
    requires i <= |s|
    ensures i <= j <= |s|
    ensures j < |s| ==> !IsSpace(s[j])
    decreases |s| - i
  {
    if i < |s| && IsSpace(s[i]) then SpaceEnd(s, i + 1) else i
  }

  /** Everything a greedy `\d*` consumed is a digit. */
  lemma {:induction false} DigitEndSpans(s: string, i: nat)
    requires i <= |s|
    ensures DigitsBetween(s, i, DigitEnd(s, i))
    decreases |s| - i
  {
    if i < |s| && IsDigit(s[i]) {
      DigitEndSpans(s, i + 1);
    }
  }

  /** Everything a greedy `\s*` consumed is whitespace. */
  lemma {:induction false} SpaceEndSpans(s: string, i: nat)
    requires i <= |s|
    ensures SpacesBetween(s, i, SpaceEnd(s, i))
    decreases |s| - i
  {
    if i < |s| && IsSpace(s[i]) {
      SpaceEndSpans(s, i + 1);
    }
  }

  lemma {:induction false} DigitEndStops(s: string, i: nat, j: nat)
    requires i <= j <= |s| && DigitsBetween(s, i, j) && (j == |s| || !IsDigit(s[j]))
    ensures DigitEnd(s, i) == j
    decreases j - i
  {
    if i < j {
      DigitEndStops(s, i + 1, j);
    }
  }

  lemma {:induction false} DigitEndReaches(s: string, i: nat, j: nat)
    requires i <= j <= |s| && DigitsBetween(s, i, j)
    ensures DigitEnd(s, i) >= j
    decreases j - i
  {
    if i < j {
      DigitEndReaches(s, i + 1, j);
    }
  }

  lemma {:induction false} SpaceEndStops(s: string, i: nat, j: nat)
    requires i <= j <= |s| && SpacesBetween(s, i, j) && (j == |s| || !IsSpace(s[j]))
    ensures SpaceEnd(s, i) == j
    decreases j - i
  {
    if i < j {
      SpaceEndStops(s, i + 1, j);
    }
  }

  // ---------------------------------------------------------------------------
  // One timestamp: \d+:\d+:\d+<sep>\d+
  // ---------------------------------------------------------------------------

  /** Where the four digit runs of a timestamp at the start of `s` end: at the
      two colons, at the separator and after the fraction. */
  function TimestampEnds(s: string, sep: char): (r: Option<(nat, nat, nat, nat)>)
    ensures r.Some? ==> TimestampAt(s, sep, r.value.0, r.value.1, r.value.2, r.value.3)
  {
    var a := DigitEnd(s, 0);
    if !(0 < a < |s| && s[a] == ':') then None
    else
      var b := DigitEnd(s, a + 1);
      if !(a + 1 < b < |s| && s[b] == ':') then None
      else
        var c := DigitEnd(s, b + 1);
        if !(b + 1 < c < |s| && s[c] == sep) then None
        else
          var d := DigitEnd(s, c + 1);
          if d == c + 1 then None else Some((a, b, c, d))
  }

  /** The digit runs of `s` end at `a`, `b`, `c` and `d`, the first three are
      followed by ':', ':' and `sep`, and none of them is empty. */
  predicate TimestampAt(s: string, sep: char, a: nat, b: nat, c: nat, d: nat) {
    0 < a < |s| && DigitEnd(s, 0) == a && s[a] == ':'
    && a + 1 < b < |s| && DigitEnd(s, a + 1) == b && s[b] == ':'
    && b + 1 < c < |s| && DigitEnd(s, b + 1) == c && s[c] == sep
    && c + 1 < d <= |s| && DigitEnd(s, c + 1) == d
  }

  /** The four digit groups between the given positions. */
  function Cut(s: string, a: nat, b: nat, c: nat, d: nat): Fields
    requires a < b < c < d <= |s|
  {
    Fields(s[..a], s[a + 1..b], s[b + 1..c], s[c + 1..d])
  }

  /** The timestamp at the start of `s`, if any, as its four digit groups. */
  function MatchTimestamp(s: string, sep: char): Option<Fields> {
    match TimestampEnds(s, sep)
    case None => None
    case Some((a, b, c, d)) => Some(Cut(s, a, b, c, d))
  }

  /** What the scanner finds is a timestamp at the start of `s`, and the
      character after it, if any, is not a digit (the last `\d+` is greedy). */
  lemma MatchTimestampSound(s: string, sep: char)
    ensures var r := MatchTimestamp(s, sep);
            r.Some? ==> ValidFields(r.value) && StartsWith(s, Compose(r.value, sep))
                        && (|Compose(r.value, sep)| == |s| || !IsDigit(s[|Compose(r.value, sep)|]))
  {
    match TimestampEnds(s, sep)
    case None =>
    case Some((a, b, c, d)) =>
      CutSound(s, sep, a, b, c, d);
  }

  lemma CutSound(s: string, sep: char, a: nat, b: nat, c: nat, d: nat)
    requires TimestampAt(s, sep, a, b, c, d)
    ensures ValidFields(Cut(s, a, b, c, d)) && Compose(Cut(s, a, b, c, d), sep) == s[..d]
  {
    ComposeFromPositions(s, sep, a, b, c, d);
    DigitEndSpans(s, 0);
    DigitEndSpans(s, a + 1);
    DigitEndSpans(s, b + 1);
    DigitEndSpans(s, c + 1);
    DigitsInSlice(s, 0, a);
    DigitsInSlice(s, a + 1, b);
    DigitsInSlice(s, b + 1, c);
    DigitsInSlice(s, c + 1, d);
  }

  lemma DigitsInSlice(s: string, i: nat, j: nat)
    requires i <= j <= |s| && DigitsBetween(s, i, j)
    ensures AllDigits(s[i..j])
  {
  }

  lemma DigitsOfSlice(s: string, i: nat, j: nat)
    requires i <= j <= |s| && AllDigits(s[i..j])
    ensures DigitsBetween(s, i, j)
  {
    assert forall k :: i <= k < j ==> s[k] == s[i..j][k - i];
  }

  /** The digit groups cut out of `s` at the separator positions `a`, `b`, `c`
      compose back to the prefix of `s` they came from. */
  lemma ComposeFromPositions(s: string, sep: char, a: nat, b: nat, c: nat, d: nat)
    requires a < b < c < d <= |s|
    requires s[a] == ':' && s[b] == ':' && s[c] == sep
    ensures Compose(Cut(s, a, b, c, d), sep) == s[..d]
  {
    assert s[..a] + ":" == s[..a + 1];
    assert s[..a + 1] + s[a + 1..b] == s[..b];
    assert s[..b] + ":" == s[..b + 1];
    assert s[..b + 1] + s[b + 1..c] == s[..c];
    assert s[..c] + [sep] == s[..c + 1];
    assert s[..c + 1] + s[c + 1..d] == s[..d];
  }

  /** Where the pieces of a timestamp sit inside a string that starts with it. */
  lemma TimestampPositions(s: string, f: Fields, sep: char)
    requires StartsWith(s, Compose(f, sep))
    ensures var a := |f.hours|;
            var b := a + 1 + |f.minutes|;
            var c := b + 1 + |f.seconds|;
            var d := c + 1 + |f.fraction|;
            d == |Compose(f, sep)| && d <= |s|
            && s[..a] == f.hours && s[a] == ':' && s[a + 1..b] == f.minutes && s[b] == ':'
            && s[b + 1..c] == f.seconds && s[c] == sep && s[c + 1..d] == f.fraction
  {
    var a := |f.hours|;
    var b := a + 1 + |f.minutes|;
    var c := b + 1 + |f.seconds|;
    var d := c + 1 + |f.fraction|;
    var p := Compose(f, sep);
    assert p == f.hours + [':'] + f.minutes + [':'] + f.seconds + [sep] + f.fraction;
    assert p[..a] == f.hours;
    assert p[a + 1..b] == f.minutes;
    assert p[b + 1..c] == f.seconds;
    assert p[c + 1..d] == f.fraction;
    PrefixSlice(s, p, 0, a);
    PrefixSlice(s, p, a + 1, b);
    PrefixSlice(s, p, b + 1, c);
    PrefixSlice(s, p, c + 1, d);
  }

  /** Any slice inside a prefix of `s` is the same slice of `s`. */
  lemma PrefixSlice(s: string, p: string, k: nat, l: nat)
    requires StartsWith(s, p) && k <= l <= |p|
    ensures s[k..l] == p[k..l]
  {
    assert forall i :: k <= i < l ==> s[i] == s[..|p|][i];
  }

  /** Where the separators of the timestamp `f` sit when it is written out. */
  function Ends(f: Fields): (nat, nat, nat, nat) {
    var a := |f.hours|;
    var b := a + 1 + |f.minutes|;
    var c := b + 1 + |f.seconds|;
    (a, b, c, c + 1 + |f.fraction|)
  }

  /** The scanner's runs over a string that starts with the timestamp `f`: the
      first three stop at its colons and separator, the last one no earlier
      than the end of its fraction. */
  lemma TimestampRuns(s: string, f: Fields, sep: char)
    requires ValidFields(f) && !IsDigit(sep)
    requires StartsWith(s, Compose(f, sep))
    ensures var (a, b, c, d) := Ends(f);
            d == |Compose(f, sep)| && 0 < a < b < c < d <= |s|
            && DigitEnd(s, 0) == a && s[a] == ':' && DigitEnd(s, a + 1) == b && s[b] == ':'
            && DigitEnd(s, b + 1) == c && s[c] == sep && DigitsBetween(s, c + 1, d)
  {
    TimestampPositions(s, f, sep);
    var (a, b, c, d) := Ends(f);
    GroupRun(s, 0, a, f.hours);
    GroupRun(s, a + 1, b, f.minutes);
    GroupRun(s, b + 1, c, f.seconds);
    DigitsOfSlice(s, c + 1, d);
  }

  /** A run of digits followed by a non-digit is exactly what `\d+` takes. */
  lemma GroupRun(s: string, i: nat, j: nat, g: string)
    requires i <= j < |s| && s[i..j] == g && IsNumeral(g) && !IsDigit(s[j])
    ensures DigitEnd(s, i) == j
  {
    DigitsOfSlice(s, i, j);
    DigitEndStops(s, i, j);
  }

  /** The groups cut at the separators of `f`, with the last run ending at `e`
      at or after the end of `f`, agree with `f` except that the fraction may
      run on. */
  lemma CutAgrees(s: string, f: Fields, sep: char, e: nat)
    requires StartsWith(s, Compose(f, sep))
    requires Ends(f).3 <= e <= |s|
    ensures var (a, b, c, d) := Ends(f);
            var g := Cut(s, a, b, c, e);
            g.hours == f.hours && g.minutes == f.minutes && g.seconds == f.seconds
            && StartsWith(g.fraction, f.fraction) && (e == d ==> g == f)
  {
    TimestampPositions(s, f, sep);
    var (a, b, c, d) := Ends(f);
    assert s[c + 1..e][..|f.fraction|] == s[c + 1..d];
  }

  /** Whenever some timestamp starts `s`, the scanner finds one with the same
      hours, minutes and seconds and a fraction that extends the given one:
      a `None` from the scanner means that no prefix of `s` is a timestamp. */
  lemma MatchTimestampFindsPrefix(s: string, f: Fields, sep: char)
    requires ValidFields(f) && !IsDigit(sep)
    requires StartsWith(s, Compose(f, sep))
    ensures MatchTimestamp(s, sep).Some?
    ensures var g := MatchTimestamp(s, sep).value;
            g.hours == f.hours && g.minutes == f.minutes && g.seconds == f.seconds
            && StartsWith(g.fraction, f.fraction)
  {
    TimestampRuns(s, f, sep);
    var (a, b, c, d) := Ends(f);
    DigitEndReaches(s, c + 1, d);
    var e := DigitEnd(s, c + 1);
    assert TimestampEnds(s, sep) == Some((a, b, c, e));
    CutAgrees(s, f, sep, e);
  }

  /** The scanner stops exactly at the separators and at the end of a
      timestamp that is not followed by another digit. */
  lemma TimestampEndsExact(s: string, f: Fields, sep: char)
    requires ValidFields(f) && !IsDigit(sep)
    requires StartsWith(s, Compose(f, sep))
    requires |Compose(f, sep)| == |s| || !IsDigit(s[|Compose(f, sep)|])
    ensures TimestampEnds(s, sep) == Some(Ends(f))
  {
    TimestampRuns(s, f, sep);
    var (a, b, c, d) := Ends(f);
    DigitEndStops(s, c + 1, d);
  }

  /** A timestamp at the start of `s` that is not followed by another digit is
      found exactly. */
  lemma MatchTimestampExact(s: string, f: Fields, sep: char)
    requires ValidFields(f) && !IsDigit(sep)
    requires StartsWith(s, Compose(f, sep))
    requires |Compose(f, sep)| == |s| || !IsDigit(s[|Compose(f, sep)|])
    ensures MatchTimestamp(s, sep) == Some(f)
  {
    TimestampEndsExact(s, f, sep);
    TimestampPositions(s, f, sep);
    CutAgrees(s, f, sep, Ends(f).3);
  }

  // ---------------------------------------------------------------------------
  // The time line: <timestamp>\s*-->\s*<timestamp>
  // ---------------------------------------------------------------------------

  /** The two timestamps of a time line and the whitespace around the arrow. */
  datatype TimeLineMatch = TimeLineMatch(start: Fields, gapBefore: string, gapAfter: string, end: Fields)

  predicate ValidMatch(m: TimeLineMatch) {
    ValidFields(m.start) && ValidFields(m.end) && AllSpace(m.gapBefore) && AllSpace(m.gapAfter)
  }

  /** The text the regular expression consumed. */
  function MatchedText(m: TimeLineMatch, sep: char): string {
    Compose(m.start, sep) + m.gapBefore + "-->" + m.gapAfter + Compose(m.end, sep)
  }

  /** re.match of the time-line pattern with fractional separator `sep`. */
  function MatchTimeLine(line: string, sep: char): Option<TimeLineMatch> {
    match TimestampEnds(line, sep)
    case None => None
    case Some((a, b, c, i0)) => MatchArrow(line, sep, Cut(line, a, b, c, i0), i0)
  }

  /** The rest of the time-line pattern, `\s*-->\s*<timestamp>`, matched at
      `i0` where the first timestamp `start` ended. */
  function MatchArrow(line: string, sep: char, start: Fields, i0: nat): Option<TimeLineMatch>
    requires i0 <= |line|
  {
    var i1 := SpaceEnd(line, i0);
    if !ArrowAt(line, i1) then None
    else
      var i2 := SpaceEnd(line, i1 + 3);
      WithEnd(TimeLineMatch(start, line[i0..i1], line[i1 + 3..i2], start), MatchTimestamp(line[i2..], sep))
  }

  predicate ArrowAt(line: string, i: nat) {
    i + 3 <= |line| && line[i] == '-' && line[i + 1] == '-' && line[i + 2] == '>'
  }

  /** The time line `m` with its second timestamp replaced by what the
      scanner found there. */
  function WithEnd(m: TimeLineMatch, end: Option<Fields>): Option<TimeLineMatch> {
    match end
    case None => None
    case Some(e) => Some(m.(end := e))
  }

  /** What the scanner finds is a well-formed time line at the start of the
      line, and the character after it, if any, is not a digit. */
  lemma MatchTimeLineSound(line: string, sep: char)
    ensures var r := MatchTimeLine(line, sep);
            r.Some? ==> ValidMatch(r.value) && StartsWith(line, MatchedText(r.value, sep))
                        && (|MatchedText(r.value, sep)| == |line| || !IsDigit(line[|MatchedText(r.value, sep)|]))
  {
    match TimestampEnds(line, sep)
    case None =>
    case Some((a, b, c, i0)) =>
      var i1 := SpaceEnd(line, i0);
      if ArrowAt(line, i1) {
        ArrowSlice(line, i1);
        var i2 := SpaceEnd(line, i1 + 3);
        MatchTimestampSound(line[i2..], sep);
        match MatchTimestamp(line[i2..], sep)
        case None =>
        case Some(end) =>
          CutSound(line, sep, a, b, c, i0);
          var m := TimeLineMatch(Cut(line, a, b, c, i0), line[i0..i1], line[i1 + 3..i2], end);
          SpaceEndSpans(line, i0);
          SpaceEndSpans(line, i1 + 3);
          GapsAreSpace(line, i0, i1);
          GapsAreSpace(line, i1 + 3, i2);
          MatchedLine(line, sep, m, i0, i1, i2);
      }
  }

  lemma ArrowSlice(line: string, i: nat)
    requires i + 3 <= |line|
    ensures ArrowAt(line, i) <==> line[i..i + 3] == "-->"
  {
    if ArrowAt(line, i) {
      assert line[i..i + 3] == [line[i], line[i + 1], line[i + 2]];
    }
  }

  lemma GapsAreSpace(line: string, i: nat, j: nat)
    requires i <= j <= |line| && SpacesBetween(line, i, j)
    ensures AllSpace(line[i..j])
  {
  }

  lemma MatchedLine(line: string, sep: char, m: TimeLineMatch, i0: nat, i1: nat, i2: nat)
    requires i0 <= i1 && i1 + 3 <= i2 <= |line|
    requires Compose(m.start, sep) == line[..i0]
    requires m.gapBefore == line[i0..i1] && line[i1..i1 + 3] == "-->" && m.gapAfter == line[i1 + 3..i2]
    requires StartsWith(line[i2..], Compose(m.end, sep))
    requires |Compose(m.end, sep)| == |line[i2..]| || !IsDigit(line[i2..][|Compose(m.end, sep)|])
    ensures StartsWith(line, MatchedText(m, sep))
    ensures |MatchedText(m, sep)| == |line| || !IsDigit(line[|MatchedText(m, sep)|])
  {
    var i3 := i2 + |Compose(m.end, sep)|;
    assert line[i2..][..|Compose(m.end, sep)|] == line[i2..i3];
    var t := Compose(m.start, sep) + m.gapBefore;
    PrefixGrows(line, i0, i1);
    assert line[..i1] == t;
    PrefixGrows(line, i1, i1 + 3);
    assert line[..i1 + 3] == t + "-->";
    PrefixGrows(line, i1 + 3, i2);
    assert line[..i2] == t + "-->" + m.gapAfter;
    PrefixGrows(line, i2, i3);
    assert MatchedText(m, sep) == line[..i3];
    assert i3 < |line| ==> line[i3] == line[i2..][|Compose(m.end, sep)|];
  }

  lemma PrefixGrows(s: string, i: nat, j: nat)
    requires i <= j <= |s|
    ensures s[..j] == s[..i] + s[i..j]
  {
  }

  /** Where the pieces of a time line sit inside a line that starts with it. */
  lemma TimeLinePositions(line: string, m: TimeLineMatch, sep: char)
    requires StartsWith(line, MatchedText(m, sep))
    ensures var i0 := |Compose(m.start, sep)|;
            var i1 := i0 + |m.gapBefore|;
            var i2 := i1 + 3 + |m.gapAfter|;
            var i3 := i2 + |Compose(m.end, sep)|;
            i3 == |MatchedText(m, sep)| && i3 <= |line|
            && line[..i0] == Compose(m.start, sep) && line[i0..i1] == m.gapBefore
            && line[i1..i1 + 3] == "-->" && line[i1 + 3..i2] == m.gapAfter
            && line[i2..i3] == Compose(m.end, sep)
  {
    var i0 := |Compose(m.start, sep)|;
    var i1 := i0 + |m.gapBefore|;
    var i2 := i1 + 3 + |m.gapAfter|;
    var i3 := i2 + |Compose(m.end, sep)|;
    var p := MatchedText(m, sep);
    assert p[..i0] == Compose(m.start, sep);
    assert p[i0..i1] == m.gapBefore;
    assert p[i1..i1 + 3] == "-->";
    assert p[i1 + 3..i2] == m.gapAfter;
    assert p[i2..i3] == Compose(m.end, sep);
    PrefixSlice(line, p, 0, i0);
    PrefixSlice(line, p, i0, i1);
    PrefixSlice(line, p, i1, i1 + 3);
    PrefixSlice(line, p, i1 + 3, i2);
    PrefixSlice(line, p, i2, i3);
  }

  /** Whenever the start of `line` has the shape of a time line, the scanner
      matches it, with the same first timestamp and the same whitespace: a
      `None` means that no prefix of the line has that shape. */
  lemma MatchTimeLineFindsPrefix(line: string, m: TimeLineMatch, sep: char)
    requires ValidMatch(m) && !IsDigit(sep) && !IsSpace(sep)
    requires StartsWith(line, MatchedText(m, sep))
    ensures MatchTimeLine(line, sep).Some?
    ensures var r := MatchTimeLine(line, sep).value;
            r.start == m.start && r.gapBefore == m.gapBefore && r.gapAfter == m.gapAfter
            && r.end.hours == m.end.hours && r.end.minutes == m.end.minutes
            && r.end.seconds == m.end.seconds && StartsWith(r.end.fraction, m.end.fraction)
  {
    var i2 := TimeLineScan(line, m, sep);
    MatchTimestampFindsPrefix(line[i2..], m.end, sep);
  }

  /** Exactly one well-formed time line, followed by anything but a digit, is
      matched exactly: both timestamps and both gaps come back unchanged. */
  lemma MatchTimeLineExact(line: string, m: TimeLineMatch, sep: char)
    requires ValidMatch(m) && !IsDigit(sep) && !IsSpace(sep)
    requires StartsWith(line, MatchedText(m, sep))
    requires |MatchedText(m, sep)| == |line| || !IsDigit(line[|MatchedText(m, sep)|])
    ensures MatchTimeLine(line, sep) == Some(m)
  {
    var i2 := TimeLineScan(line, m, sep);
    SuffixFollow(line, i2, |Compose(m.end, sep)|);
    MatchTimestampExact(line[i2..], m.end, sep);
    assert m.(end := m.end) == m;
  }

  lemma SuffixFollow(line: string, i: nat, n: nat)
    requires i + n <= |line| && (i + n == |line| || !IsDigit(line[i + n]))
    ensures n == |line[i..]| || !IsDigit(line[i..][n])
  {
  }

  /** The time line `m` at the start of `line`, scanned up to its second
      timestamp: the first timestamp and both gaps are found exactly, and the
      rest of the scan is the timestamp scanner run where `m.end` starts. */
  lemma TimeLineScan(line: string, m: TimeLineMatch, sep: char) returns (i2: nat)
    requires ValidMatch(m) && !IsDigit(sep) && !IsSpace(sep)
    requires StartsWith(line, MatchedText(m, sep))
    ensures i2 + |Compose(m.end, sep)| == |MatchedText(m, sep)| <= |line|
    ensures StartsWith(line[i2..], Compose(m.end, sep))
    ensures MatchTimeLine(line, sep) == WithEnd(m, MatchTimestamp(line[i2..], sep))
  {
    var i1;
    i1, i2 := GapsScan(line, m, sep);
    var i0 := Ends(m.start).3;
    MatchArrowRuns(line, sep, m.start, i0, i1, i2);
  }

  /** How the time-line scanner runs when its first timestamp ends at `i0`
      and the `\s*` before and after the arrow stop at `i1` and `i2`. */
  lemma MatchArrowRuns(line: string, sep: char, start: Fields, i0: nat, i1: nat, i2: nat)
    requires i0 <= i1 && i1 + 3 <= i2 <= |line|
    requires SpaceEnd(line, i0) == i1 && ArrowAt(line, i1) && SpaceEnd(line, i1 + 3) == i2
    ensures MatchArrow(line, sep, start, i0)
            == WithEnd(TimeLineMatch(start, line[i0..i1], line[i1 + 3..i2], start), MatchTimestamp(line[i2..], sep))
  {
  }

  /** Scanning the first timestamp and the gaps of the time line `m`. */
  lemma GapsScan(line: string, m: TimeLineMatch, sep: char) returns (i1: nat, i2: nat)
    requires ValidMatch(m) && !IsDigit(sep) && !IsSpace(sep)
    requires StartsWith(line, MatchedText(m, sep))
    ensures var (a, b, c, i0) := Ends(m.start);
            TimestampEnds(line, sep) == Some((a, b, c, i0)) && Cut(line, a, b, c, i0) == m.start
            && i0 <= i1 && i1 + 3 <= i2 <= |line|
            && SpaceEnd(line, i0) == i1 && ArrowAt(line, i1) && SpaceEnd(line, i1 + 3) == i2
            && line[i0..i1] == m.gapBefore && line[i1 + 3..i2] == m.gapAfter
    ensures i2 + |Compose(m.end, sep)| == |MatchedText(m, sep)| <= |line|
    ensures StartsWith(line[i2..], Compose(m.end, sep))
  {
    TimeLinePositions(line, m, sep);
    var i0 := |Compose(m.start, sep)|;
    i1 := i0 + |m.gapBefore|;
    i2 := i1 + 3 + |m.gapAfter|;
    var i3 := i2 + |Compose(m.end, sep)|;
    GapsAt(line, sep, m.start, m.gapBefore, m.gapAfter, m.end, i0, i1, i2, i3);
  }

  /** The scan over the pieces of a time line laid out at `0`, `i0`, `i1`,
      `i1 + 3`, `i2` and `i3`. */
  lemma GapsAt(line: string, sep: char, start: Fields, before: string, after: string, end: Fields,
               i0: nat, i1: nat, i2: nat, i3: nat)
    requires ValidFields(start) && ValidFields(end) && AllSpace(before) && AllSpace(after)
    requires !IsDigit(sep) && !IsSpace(sep)
    requires i0 == |Compose(start, sep)| && i1 == i0 + |before| && i2 == i1 + 3 + |after|
    requires i3 == i2 + |Compose(end, sep)| <= |line|
    requires line[..i0] == Compose(start, sep) && line[i0..i1] == before
    requires line[i1..i1 + 3] == "-->" && line[i1 + 3..i2] == after && line[i2..i3] == Compose(end, sep)
    ensures var (a, b, c, d) := Ends(start);
            TimestampEnds(line, sep) == Some((a, b, c, d)) && d == i0 && Cut(line, a, b, c, d) == start
    ensures SpaceEnd(line, i0) == i1 && ArrowAt(line, i1) && SpaceEnd(line, i1 + 3) == i2
    ensures StartsWith(line[i2..], Compose(end, sep))
  {
    ArrowSlice(line, i1);
    assert line[i1] == line[i1..i1 + 3][0] == '-';
    GapEnds(line, i0, i1, before);
    StartTimestamp(line, start, sep, i0);
    TimestampStopsGap(line, i2, i3, end, sep);
    GapEnds(line, i1 + 3, i2, after);
  }

  /** A `\s*` over the whitespace `gap` stops where the gap ends, if a
      non-space follows it; a non-empty gap does not start with a digit. */
  lemma GapEnds(line: string, i: nat, j: nat, gap: string)
    requires i <= j < |line| && line[i..j] == gap && AllSpace(gap) && !IsSpace(line[j])
    ensures SpaceEnd(line, i) == j && (i < j ==> !IsDigit(line[i]))
  {
    assert forall k :: i <= k < j ==> line[k] == gap[k - i];
    SpaceEndStops(line, i, j);
  }

  lemma StartTimestamp(line: string, f: Fields, sep: char, i0: nat)
    requires ValidFields(f) && !IsDigit(sep)
    requires i0 == |Compose(f, sep)| <= |line| && line[..i0] == Compose(f, sep)
    requires i0 == |line| || !IsDigit(line[i0])
    ensures var (a, b, c, d) := Ends(f);
            TimestampEnds(line, sep) == Some((a, b, c, d)) && d == i0 && Cut(line, a, b, c, d) == f
  {
    TimestampEndsExact(line, f, sep);
    CutAgrees(line, f, sep, i0);
  }

  lemma TimestampStopsGap(line: string, i: nat, j: nat, f: Fields, sep: char)
    requires i <= j <= |line| && line[i..j] == Compose(f, sep) && ValidFields(f)
    ensures i < |line| && !IsSpace(line[i])
    ensures StartsWith(line[i..], Compose(f, sep))
  {
    assert line[i] == line[i..j][0] == f.hours[0];
    assert line[i..][..j - i] == line[i..j];
  }
}

=== FILE: timestamp.dfy ===
/** Timestamps: `parse_srt_time` and `format_time` of subtitle_processor.py.
    Seconds are exact reals. `format_time` is modelled for every non-negative
    input, rounding the seconds field to milliseconds; on whole numbers of
    milliseconds no rounding happens and the two functions are inverse. */
module Timestamp {
  import opened Wrappers
  import opened Text

  /** The four digit groups of a timestamp `H+:M+:S+<sep>F+`. */
  datatype Fields = Fields(hours: string, minutes: string, seconds: string, fraction: string)

  predicate ValidFields(f: Fields) {
    IsNumeral(f.hours) && IsNumeral(f.minutes) && IsNumeral(f.seconds) && IsNumeral(f.fraction)
  }

  /** The text of a timestamp with fractional separator `sep` (',' for SRT, '.' for VTT). */
  function Compose(f: Fields, sep: char): string {
    f.hours + ":" + f.minutes + ":" + f.seconds + [sep] + f.fraction
  }

  /** The seconds a timestamp denotes: hours * 3600 + minutes * 60 + seconds,
      the fraction being decimal digits of a second. No field is bounded. */
  function FieldsValue(f: Fields): real
    requires ValidFields(f)
  {
    NumeralValue(f.hours) as real * 3600.0 + NumeralValue(f.minutes) as real * 60.0
    + DecimalValue(f.seconds, f.fraction)
  }

  /** The value of the decimal literal `whole.frac`. */
  function DecimalValue(whole: string, frac: string): real
    requires AllDigits(whole) && AllDigits(frac)
  {
    NumeralValue(whole) as real + NumeralValue(frac) as real / Pow10(|frac|) as real
  }

  // ---------------------------------------------------------------------------
  // parse_srt_time
  // ---------------------------------------------------------------------------

  /** float(s) for plain decimal literals: digits with at most one '.' and at
      least one digit ("5", "5.25", ".5", "5."); anything else raises. */
  function ParseDecimal(s: string): (r: Option<real>)
    ensures r.Some? ==> r.value >= 0.0
  {
    var parts := Split(s, '.');
    if |parts| == 1 then
      if IsNumeral(parts[0]) then Some(NumeralValue(parts[0]) as real) else None
    else if |parts| == 2 && AllDigits(parts[0]) && AllDigits(parts[1]) && |parts[0]| + |parts[1]| > 0 then
      Some(DecimalValue(parts[0], parts[1]))
    else None
  }

  /** float() of a digit string is its decimal value. */
  lemma ParseDecimalNumeral(s: string)
    requires IsNumeral(s)
    ensures ParseDecimal(s) == Some(NumeralValue(s) as real)
  {
    DigitsExclude(s, '.');
    SplitWithoutSeparator(s, '.');
  }

  /** parse_srt_time: replace ',' by '.', split on ':' into exactly three
      fields and read each with float(); `None` where Python raises. */
  function ParseSrtTime(s: string): (r: Option<real>)
    ensures r.Some? ==> r.value >= 0.0
    ensures r.Some? ==> |Split(s, ':')| == 3
    ensures var fields := Split(ReplaceChar(s, ',', '.'), ':');
            r.Some? <==> |fields| == 3 && ParseDecimal(fields[0]).Some?
                         && ParseDecimal(fields[1]).Some? && ParseDecimal(fields[2]).Some?
  {
    var fields := Split(ReplaceChar(s, ',', '.'), ':');
    if |fields| != 3 then None
    else
      match (ParseDecimal(fields[0]), ParseDecimal(fields[1]), ParseDecimal(fields[2]))
      case (Some(h), Some(m), Some(sec)) =>
        ReplaceKeepsSplit(s, ',', '.', ':');
        Some(h * 3600.0 + m * 60.0 + sec)
      case _ => None
  }

  /** Replacing one character by another that is not the split separator does
      not change the number of fields. */
  lemma {:induction false} ReplaceKeepsSplit(s: string, from: char, to: char, sep: char)
    requires from != sep && to != sep
    ensures |Split(ReplaceChar(s, from, to), sep)| == |Split(s, sep)|
  {
    if |s| > 0 {
      ReplaceKeepsSplit(s[1..], from, to, sep);
      assert ReplaceChar(s, from, to)[1..] == ReplaceChar(s[1..], from, to);
    }
  }

  lemma ReplaceAppend(a: string, b: string, from: char, to: char)
    ensures ReplaceChar(a + b, from, to) == ReplaceChar(a, from, to) + ReplaceChar(b, from, to)
  {
    assert forall i :: 0 <= i < |a + b| ==>
      ReplaceChar(a + b, from, to)[i] == (ReplaceChar(a, from, to) + ReplaceChar(b, from, to))[i];
  }

  lemma ReplaceAbsent(s: string, from: char, to: char)
    requires from !in s
    ensures ReplaceChar(s, from, to) == s
  {
    assert forall i :: 0 <= i < |s| ==> ReplaceChar(s, from, to)[i] == s[i];
  }

  /** The comma of an SRT timestamp becomes the decimal point. */
  lemma ReplaceInCompose(f: Fields, sep: char)
    requires ValidFields(f)
    requires sep == ',' || sep == '.'
    ensures ReplaceChar(Compose(f, sep), ',', '.') == Compose(f, '.')
  {
    var head := f.hours + ":" + f.minutes + ":" + f.seconds;
    assert Compose(f, sep) == head + ([sep] + f.fraction);
    assert Compose(f, '.') == head + (['.'] + f.fraction);
    assert ',' !in head by {
      forall i | 0 <= i < |head| ensures head[i] != ',' {
        if i < |f.hours| { assert head[i] == f.hours[i]; }
        else if i == |f.hours| { }
        else if i < |f.hours| + 1 + |f.minutes| { assert head[i] == f.minutes[i - |f.hours| - 1]; }
        else if i == |f.hours| + 1 + |f.minutes| { }
        else { assert head[i] == f.seconds[i - |f.hours| - 2 - |f.minutes|]; }
      }
    }
    ReplaceAppend(head, [sep] + f.fraction, ',', '.');
    ReplaceAbsent(head, ',', '.');
    ReplaceAppend([sep], f.fraction, ',', '.');
    ReplaceAbsent(f.fraction, ',', '.');
    assert ReplaceChar([sep], ',', '.') == ".";
  }

  lemma DigitsExclude(s: string, c: char)
    requires AllDigits(s) && !IsDigit(c)
    ensures c !in s
  {
  }

  /** Splitting a timestamp on ':' yields hours, minutes and `seconds.fraction`. */
  lemma SplitCompose(f: Fields)
    requires ValidFields(f)
    ensures Split(Compose(f, '.'), ':') == [f.hours, f.minutes, f.seconds + "." + f.fraction]
  {
    var tail := f.seconds + "." + f.fraction;
    assert [f.hours, f.minutes, tail][1..] == [f.minutes, tail];
    assert [f.minutes, tail][1..] == [tail];
    assert Join([f.minutes, tail], ":") == f.minutes + ":" + tail;
    assert Compose(f, '.') == Join([f.hours, f.minutes, tail], ":");
    assert ':' !in tail by {
      forall i | 0 <= i < |tail| ensures tail[i] != ':' {
        if i < |f.seconds| { assert tail[i] == f.seconds[i]; }
        else if i > |f.seconds| { assert tail[i] == f.fraction[i - |f.seconds| - 1]; }
      }
    }
    DigitsExclude(f.hours, ':');
    DigitsExclude(f.minutes, ':');
    SplitJoin([f.hours, f.minutes, tail], ':');
  }

  /** float("SS.FFF") is the seconds plus the fraction as decimal digits. */
  lemma ParseDecimalWithPoint(whole: string, frac: string)
    requires IsNumeral(whole) && IsNumeral(frac)
    ensures ParseDecimal(whole + "." + frac) == Some(DecimalValue(whole, frac))
  {
    var s := whole + "." + frac;
    assert [whole, frac][1..] == [frac];
    assert s == Join([whole, frac], ".");
    DigitsExclude(whole, '.');
    DigitsExclude(frac, '.');
    SplitJoin([whole, frac], '.');
    assert Split(s, '.') == [whole, frac];
  }

  /** Three fields that each read as a number give hours, minutes and seconds. */
  lemma ParseThreeFields(s: string, a: string, b: string, c: string, x: real, y: real, z: real)
    requires Split(ReplaceChar(s, ',', '.'), ':') == [a, b, c]
    requires ParseDecimal(a) == Some(x) && ParseDecimal(b) == Some(y) && ParseDecimal(c) == Some(z)
    ensures ParseSrtTime(s) == Some(x * 3600.0 + y * 60.0 + z)
  {
  }

  /** A timestamp reads as the value of its fields, whichever separator it uses. */
  lemma ParseComposed(f: Fields, sep: char)
    requires ValidFields(f)
    requires sep == ',' || sep == '.'
    ensures ParseSrtTime(Compose(f, sep)) == Some(FieldsValue(f))
  {
    ReplaceInCompose(f, sep);
    SplitCompose(f);
    ParseDecimalNumeral(f.hours);
    ParseDecimalNumeral(f.minutes);
    ParseDecimalWithPoint(f.seconds, f.fraction);
    ParseThreeFields(Compose(f, sep), f.hours, f.minutes, f.seconds + "." + f.fraction,
      NumeralValue(f.hours) as real, NumeralValue(f.minutes) as real, DecimalValue(f.seconds, f.fraction));
  }

  // ---------------------------------------------------------------------------
  // format_time
  // ---------------------------------------------------------------------------

  /** x // d for a real x and a positive constant d. */
  function FloorDiv(x: real, d: real): int
    requires d > 0.0
  {
    (x / d).Floor
  }

  /** x % d for a real x and a positive constant d (the result has the sign of d). */
  function FloorMod(x: real, d: real): (r: real)
    requires d > 0.0
    ensures 0.0 <= r < d
  {
    FloorBounds(x, d);
    x - d * FloorDiv(x, d) as real
  }

  lemma FloorBounds(x: real, d: real)
    requires d > 0.0
    ensures 0.0 <= x - d * ((x / d).Floor as real) < d
  {
    var q := (x / d).Floor;
    var y := x / d;
    assert x == d * y;
    assert q as real <= y < (q + 1) as real;
    MulMonotone(d, q as real, y);
    MulMonotoneStrict(d, y, (q + 1) as real);
    assert d * ((q + 1) as real) == d * (q as real) + d;
  }

  lemma MulMonotone(d: real, a: real, b: real)
    requires d > 0.0 && a <= b
    ensures d * a <= d * b
  {
  }

  lemma MulMonotoneStrict(d: real, a: real, b: real)
    requires d > 0.0 && a < b
    ensures d * a < d * b
  {
  }

  /** The integer nearest to `x`, ties going to the even neighbour, as the `f`
      format rounds. */
  function RoundHalfEven(x: real): (n: int)
    ensures x - 0.5 <= n as real <= x + 0.5
    ensures x.Floor as real == x ==> n == x.Floor
    ensures x - x.Floor as real == 0.5 ==> n % 2 == 0
  {
    var f := x.Floor;
    var d := x - f as real;
    if d < 0.5 then f
    else if d > 0.5 then f + 1
    else if f % 2 == 0 then f
    else f + 1
  }

  /** A non-negative whole number of milliseconds. */
  predicate IsWholeMillis(s: real) {
    s >= 0.0 && (s * 1000.0).Floor as real == s * 1000.0
  }

  /** seconds == 3600 * (seconds // 3600) + 60 * ((seconds % 3600) // 60) + seconds % 60. */
  lemma ClockDecomposition(seconds: real)
    requires seconds >= 0.0
    ensures var h := FloorDiv(seconds, 3600.0);
            var m := FloorDiv(FloorMod(seconds, 3600.0), 60.0);
            0 <= h && 0 <= m < 60 &&
            seconds == 3600.0 * h as real + 60.0 * m as real + FloorMod(seconds, 60.0)
  {
    var h: int := FloorDiv(seconds, 3600.0);
    var m: int := FloorDiv(FloorMod(seconds, 3600.0), 60.0);
    assert (60 * h + m) as real <= seconds / 60.0 < (60 * h + m + 1) as real;
    assert FloorDiv(seconds, 60.0) == 60 * h + m;
  }

  /** The four fields format_time writes for `seconds`: hours, minutes, seconds
      and milliseconds, the seconds field rounded as the `06.3f` format does. */
  function TimeFields(seconds: real): (f: Fields)
    requires seconds >= 0.0
    ensures ValidFields(f)
    ensures |f.hours| >= 2 && |f.minutes| == 2 && |f.seconds| == 2 && |f.fraction| == 3
    ensures NumeralValue(f.hours) as real * 3600.0 <= seconds < (NumeralValue(f.hours) + 1) as real * 3600.0
    ensures |f.hours| == 2 || f.hours[0] != '0'
    ensures NumeralValue(f.minutes) < 60 && NumeralValue(f.seconds) <= 60
    ensures NumeralValue(f.minutes) as real * 60.0 <= FloorMod(seconds, 3600.0)
              < (NumeralValue(f.minutes) + 1) as real * 60.0
    ensures seconds - 0.0005 <= FieldsValue(f) <= seconds + 0.0005
    ensures IsWholeMillis(seconds) ==> NumeralValue(f.seconds) < 60 && FieldsValue(f) == seconds
  {
    var hours := FloorDiv(seconds, 3600.0);
    var minutes := FloorDiv(FloorMod(seconds, 3600.0), 60.0);
    var millis := RoundHalfEven(FloorMod(seconds, 60.0) * 1000.0);
    ClockDecomposition(seconds);
    FloorBounds(FloorMod(seconds, 3600.0), 60.0);
    ClockFieldsFor(seconds, hours, minutes, millis);
    ClockFields(hours, minutes, millis)
  }

  /** The fields format_time writes, stated for the clock values it computes. */
  lemma ClockFieldsFor(seconds: real, hours: nat, minutes: nat, millis: int)
    requires seconds >= 0.0 && minutes < 60
    requires hours as real * 3600.0 <= seconds < (hours + 1) as real * 3600.0
    requires minutes as real * 60.0 <= FloorMod(seconds, 3600.0) < (minutes + 1) as real * 60.0
    requires seconds == 3600.0 * hours as real + 60.0 * minutes as real + FloorMod(seconds, 60.0)
    requires millis == RoundHalfEven(FloorMod(seconds, 60.0) * 1000.0)
    ensures 0 <= millis <= 60000
    ensures var f := ClockFields(hours, minutes, millis);
            && ValidFields(f)
            && |f.hours| >= 2 && |f.minutes| == 2 && |f.seconds| == 2 && |f.fraction| == 3
            && NumeralValue(f.hours) as real * 3600.0 <= seconds < (NumeralValue(f.hours) + 1) as real * 3600.0
            && (|f.hours| == 2 || f.hours[0] != '0')
            && NumeralValue(f.minutes) < 60 && NumeralValue(f.seconds) <= 60
            && NumeralValue(f.minutes) as real * 60.0 <= FloorMod(seconds, 3600.0)
                 < (NumeralValue(f.minutes) + 1) as real * 60.0
            && seconds - 0.0005 <= FieldsValue(f) <= seconds + 0.0005
            && (IsWholeMillis(seconds) ==> NumeralValue(f.seconds) < 60 && FieldsValue(f) == seconds)
  {
    WholeMillisNeedNoRounding(seconds);
    ClockFieldsValue(hours, minutes, millis);
  }

  /** Hours and minutes padded to two digits, then the milliseconds of the
      minute written as `SS` and `mmm`. */
  function ClockFields(hours: nat, minutes: nat, millis: nat): (f: Fields)
    requires minutes < 60 && millis <= 60000
    ensures ValidFields(f)
    ensures |f.hours| >= 2 && |f.minutes| == 2 && |f.seconds| == 2 && |f.fraction| == 3
    ensures |f.hours| == 2 || f.hours[0] != '0'
    ensures NumeralValue(f.hours) == hours && NumeralValue(f.minutes) == minutes
    ensures NumeralValue(f.seconds) == millis / 1000
  {
    ZeroPadNoLeadingZero(hours, 2);
    assert Pow10(3) == 1000;
    assert Pow10(2) == 100;
    Fields(ZeroPad(hours, 2), ZeroPad(minutes, 2), ZeroPad(millis / 1000, 2), ZeroPad(millis % 1000, 3))
  }

  lemma ClockFieldsValue(hours: nat, minutes: nat, millis: nat)
    requires minutes < 60 && millis <= 60000
    ensures FieldsValue(ClockFields(hours, minutes, millis))
      == 3600.0 * hours as real + 60.0 * minutes as real + millis as real / 1000.0
  {
    var f := ClockFields(hours, minutes, millis);
    assert Pow10(3) == 1000;
    assert NumeralValue(f.fraction) == millis % 1000;
    assert DecimalValue(f.seconds, f.fraction) == (millis / 1000) as real + (millis % 1000) as real / 1000.0;
  }

  /** On a whole number of milliseconds the seconds field is not rounded. */
  lemma WholeMillisNeedNoRounding(seconds: real)
    requires seconds >= 0.0
    ensures IsWholeMillis(seconds) ==>
      RoundHalfEven(FloorMod(seconds, 60.0) * 1000.0) as real == FloorMod(seconds, 60.0) * 1000.0
  {
    if IsWholeMillis(seconds) {
      var secs := FloorMod(seconds, 60.0);
      var k := (seconds * 1000.0).Floor;
      var q := FloorDiv(seconds, 60.0);
      assert secs * 1000.0 == (k - 60000 * q) as real;
      assert (secs * 1000.0).Floor == k - 60000 * q;
    }
  }

  /** format_time: `HH:MM:SS,mmm`, hours padded to two digits and unbounded. */
  function FormatTime(seconds: real): (r: string)
    requires seconds >= 0.0
    ensures IsCanonicalTimestamp(r)
  {
    var f := TimeFields(seconds);
    CanonicalCompose(f);
    Compose(f, ',')
  }

  /** The shape of every string format_time returns, character by character:
      at least two hour digits with no leading zero beyond two, then
      `:MM:SS,mmm` with minutes below 60 and seconds at most 60 (the 60 that
      rounding can carry into, see SecondsFieldCarry). */
  predicate IsCanonicalTimestamp(t: string) {
    && |t| >= 12
    && (|t| == 12 || t[0] != '0')
    && t[|t| - 4] == ',' && t[|t| - 7] == ':' && t[|t| - 10] == ':'
    && (forall i :: 0 <= i < |t| && i != |t| - 4 && i != |t| - 7 && i != |t| - 10 ==> IsDigit(t[i]))
    && t[|t| - 9] <= '5'
    && (t[|t| - 6] <= '5' || (t[|t| - 6] == '6' && t[|t| - 5] == '0'))
  }

  lemma TwoDigitValue(s: string)
    requires |s| == 2 && AllDigits(s)
    ensures NumeralValue(s) == 10 * DigitValue(s[0]) + DigitValue(s[1])
  {
    assert s[..1][..0] == [];
    assert NumeralValue(s[..1]) == DigitValue(s[0]);
  }

  lemma CanonicalCompose(f: Fields)
    requires ValidFields(f)
    requires |f.hours| >= 2 && |f.minutes| == 2 && |f.seconds| == 2 && |f.fraction| == 3
    requires NumeralValue(f.minutes) < 60 && NumeralValue(f.seconds) <= 60
    requires |f.hours| == 2 || f.hours[0] != '0'
    ensures IsCanonicalTimestamp(Compose(f, ','))
  {
    var t := Compose(f, ',');
    var n := |f.hours|;
    assert t == f.hours + [':'] + f.minutes + [':'] + f.seconds + [','] + f.fraction;
    TwoDigitValue(f.minutes);
    TwoDigitValue(f.seconds);
    assert t[n + 1] == f.minutes[0];
    assert t[n + 4] == f.seconds[0] && t[n + 5] == f.seconds[1];
    forall i | 0 <= i < |t| && i != |t| - 4 && i != |t| - 7 && i != |t| - 10
      ensures IsDigit(t[i])
    {
      if i < n { assert t[i] == f.hours[i]; }
      else if i < n + 3 { assert t[i] == f.minutes[i - n - 1]; }
      else if i < n + 6 { assert t[i] == f.seconds[i - n - 4]; }
      else { assert t[i] == f.fraction[i - n - 7]; }
    }
  }

  // ---------------------------------------------------------------------------
  // Properties
  // ---------------------------------------------------------------------------

  /** Round trip: a whole number of milliseconds survives formatting and parsing. */
  lemma ParseFormatRoundTrip(seconds: real)
    requires IsWholeMillis(seconds)
    ensures ParseSrtTime(FormatTime(seconds)) == Some(seconds)
  {
    ParseComposed(TimeFields(seconds), ',');
  }

  /** For any non-negative input, formatting loses at most half a millisecond. */
  lemma ParseFormatWithinHalfMilli(seconds: real)
    requires seconds >= 0.0
    ensures ParseSrtTime(FormatTime(seconds)).Some?
    ensures seconds - 0.0005 <= ParseSrtTime(FormatTime(seconds)).value <= seconds + 0.0005
  {
    ParseComposed(TimeFields(seconds), ',');
  }

  /** Distinct whole-millisecond times get distinct timestamps. */
  lemma FormatTimeInjective(a: real, b: real)
    requires IsWholeMillis(a) && IsWholeMillis(b)
    requires FormatTime(a) == FormatTime(b)
    ensures a == b
  {
    ParseFormatRoundTrip(a);
    ParseFormatRoundTrip(b);
  }

  /** Rounding can carry the seconds field to 60 instead of into the minutes:
      59.9996 s is written with a seconds field of 60 and reads back as 60 s. */
  lemma SecondsFieldCarry()
    ensures NumeralValue(TimeFields(59.9996).seconds) == 60
    ensures NumeralValue(TimeFields(59.9996).minutes) == 0
    ensures ParseSrtTime(FormatTime(59.9996)) == Some(60.0)
  {
    assert FloorDiv(59.9996, 3600.0) == 0;
    assert FloorMod(59.9996, 3600.0) == 59.9996;
    assert FloorDiv(59.9996, 60.0) == 0;
    assert FloorMod(59.9996, 60.0) == 59.9996;
    assert (59.9996 * 1000.0).Floor == 59999;
    assert RoundHalfEven(59.9996 * 1000.0) == 60000;
    var f := TimeFields(59.9996);
    assert f == ClockFields(0, 0, 60000);
    ClockFieldsValue(0, 0, 60000);
    ParseComposed(f, ',');
  }
}

=== FILE: video.dfy ===
/** The pure parts of generate_video in video_generator.py: the SRT text it
    writes for FFmpeg, the video length, the colour check, the font-name
    escape, and how the run's outcome becomes the result record. */
module Video {
  import opened Wrappers
  import opened Text
  import opened Subtitles

  // ---------------------------------------------------------------------------
  // The temporary SRT file
  // ---------------------------------------------------------------------------

  /** The three writes for one cue numbered `index`: the index line, the time
      line, and the text followed by a blank line. */
  function SrtChunk(c: Cue, index: nat): string {
    NatToString(index) + "\n" + c.startTime + " --> " + c.endTime + "\n" + c.text + "\n\n"
  }

  /** The chunks of `cues`, numbered from `first` on. */
  function SerializeFrom(cues: seq<Cue>, first: nat): (r: string)
    ensures |cues| == 0 <==> r == ""
    decreases |cues|
  {
    if |cues| == 0 then ""
    else SrtChunk(cues[0], first) + SerializeFrom(cues[1..], first + 1)
  }

  /** The content of the temporary SRT file: cues numbered from 1. */
  function SerializeSrt(cues: seq<Cue>): string {
    SerializeFrom(cues, 1)
  }

  /** Writing two runs of cues one after the other is writing them together,
      with the numbering of the second run carried on from the first. */
  lemma {:induction false} SerializeAppend(a: seq<Cue>, b: seq<Cue>, first: nat)
    ensures SerializeFrom(a + b, first) == SerializeFrom(a, first) + SerializeFrom(b, first + |a|)
    decreases |a|
  {
    if |a| == 0 {
      assert a + b == b;
    } else {
      assert (a + b)[1..] == a[1..] + b;
      SerializeAppend(a[1..], b, first + 1);
    }
  }

  // ---------------------------------------------------------------------------
  // Duration
  // ---------------------------------------------------------------------------

  /** The latest end time of a non-empty list of cues. */
  function MaxEnd(cues: seq<Cue>): (m: real)
    requires |cues| > 0
    ensures forall k :: 0 <= k < |cues| ==> cues[k].endSeconds <= m
    ensures exists k :: 0 <= k < |cues| && cues[k].endSeconds == m
    decreases |cues|
  {
    if |cues| == 1 then cues[0].endSeconds
    else
      var rest := MaxEnd(cues[1..]);
      assert forall k :: 1 <= k < |cues| ==> cues[k] == cues[1..][k - 1];
      if cues[0].endSeconds >= rest then cues[0].endSeconds else rest
  }

  /** The video length: one second past the latest end time, or 5 seconds
      when there are no cues. */
  function Duration(cues: seq<Cue>): (d: real)
    ensures |cues| == 0 ==> d == 5.0
    ensures forall k :: 0 <= k < |cues| ==> cues[k].endSeconds + 1.0 <= d
    ensures |cues| > 0 ==> exists k :: 0 <= k < |cues| && d == cues[k].endSeconds + 1.0
  {
    if |cues| > 0 then MaxEnd(cues) + 1.0 else 5.0
  }

  /** Every cue ends at least one second before the video does. */
  lemma DurationCoversCues(cues: seq<Cue>, k: nat)
    requires k < |cues|
    ensures cues[k].endSeconds < Duration(cues)
  {
  }

  // ---------------------------------------------------------------------------
  // Font name
  // ---------------------------------------------------------------------------

  /** `name.replace(' ', '\\ ')`: every space gets a backslash in front. */
  function EscapeFontName(name: string): (r: string)
    ensures |r| >= |name|
    ensures forall k :: 0 <= k < |r| && r[k] == ' ' ==> 0 < k && r[k - 1] == '\\'
    ensures |r| > 0 ==> r[0] != ' '
    decreases |name|
  {
    if |name| == 0 then ""
    else
      var rest := EscapeFontName(name[1..]);
      var head := if name[0] == ' ' then "\\ " else [name[0]];
      assert forall k :: |head| <= k < |head + rest| ==> (head + rest)[k] == rest[k - |head|];
      head + rest
  }

  /** Reading an escaped name back: a backslash before a space stands for
      the space, every other character for itself. */
  function UnescapeFontName(r: string): string
    decreases |r|
  {
    if |r| == 0 then ""
    else if |r| >= 2 && r[0] == '\\' && r[1] == ' ' then " " + UnescapeFontName(r[2..])
    else [r[0]] + UnescapeFontName(r[1..])
  }

  /** No information is lost by the escape: it is undone by reading back. */
  lemma {:induction false} UnescapeEscape(name: string)
    ensures UnescapeFontName(EscapeFontName(name)) == name
    decreases |name|
  {
    if |name| > 0 {
      var rest := EscapeFontName(name[1..]);
      UnescapeEscape(name[1..]);
      if name[0] == ' ' {
        assert EscapeFontName(name) == "\\ " + rest;
        assert ("\\ " + rest)[2..] == rest;
      } else {
        assert EscapeFontName(name) == [name[0]] + rest;
        assert ([name[0]] + rest)[1..] == rest;
      }
      assert [name[0]] + name[1..] == name;
    }
  }

  // ---------------------------------------------------------------------------
  // Colour: int(font_color_hex[i:i+2], 16)
  // ---------------------------------------------------------------------------

  predicate IsHexDigit(c: char) {
    '0' <= c <= '9' || 'a' <= c <= 'f' || 'A' <= c <= 'F'
  }

  predicate AllHex(s: string) { forall i :: 0 <= i < |s| ==> IsHexDigit(s[i]) }

  function HexDigitValue(c: char): (v: nat)
    requires IsHexDigit(c)
    ensures v < 16
  {
    if c <= '9' then c as nat - '0' as nat
    else if c <= 'F' then c as nat - 'A' as nat + 10
    else c as nat - 'a' as nat + 10
  }

  /** The value of a string of hex digits, most significant first. */
  function HexValue(s: string): nat
    requires AllHex(s)
    decreases |s|
  {
    if |s| == 0 then 0 else 16 * HexValue(s[..|s| - 1]) + HexDigitValue(s[|s| - 1])
  }

  /** The text of the ValueError int() raises, with the slice quoted. */
  function InvalidLiteral(s: string): string {
    "invalid literal for int() with base 16: '" + s + "'"
  }

  /** What int(s, 16) accepts, once surrounding whitespace is stripped, from
      the strings of at most two characters the program gives it: an optional
      sign and at least one hex digit. Longer strings may also carry a `0x`
      prefix or underscores between digits, which this does not admit. */
  predicate IsHexLiteral(t: string) {
    |t| > 0 && (if t[0] == '+' || t[0] == '-' then |t| > 1 && AllHex(t[1..]) else AllHex(t))
  }

  /** The value of a hex literal, sign included. */
  function HexLiteralValue(t: string): (v: int)
    requires IsHexLiteral(t)
    ensures |t| <= 2 ==> -15 <= v <= 255
  {
    if t[0] == '-' then
      HexValueShort(t[1..]);
      -(HexValue(t[1..]) as int)
    else if t[0] == '+' then
      HexValueShort(t[1..]);
      HexValue(t[1..])
    else
      HexValueShort(t);
      HexValue(t)
  }

  /** `int(s, 16)` for the slices of at most two characters it is given here:
      whitespace around the literal is ignored, a sign is allowed, anything
      else raises. */
  function ParseHexInt(s: string): (r: Result<int>)
    ensures r.Ok? <==> IsHexLiteral(Trim(s))
    ensures r.Err? ==> r.message == InvalidLiteral(s)
    ensures |s| <= 2 && r.Ok? ==> -15 <= r.value <= 255
  {
    var t := Trim(s);
    if IsHexLiteral(t) then Ok(HexLiteralValue(t)) else Err(InvalidLiteral(s))
  }

  lemma HexValueShort(s: string)
    requires AllHex(s)
    ensures |s| <= 1 ==> HexValue(s) < 16
    ensures |s| <= 2 ==> HexValue(s) < 256
  {
    if 0 < |s| <= 2 {
      assert AllHex(s[..|s| - 1]);
      if |s| == 2 {
        assert HexValue(s[..1]) == HexDigitValue(s[0]);
      }
    }
  }

  /** Python's `s[i:j]` for 0 <= i <= j: indices past the end are clamped. */
  function Slice(s: string, i: nat, j: nat): (r: string)
    requires i <= j
    ensures |r| <= j - i
    ensures j <= |s| ==> r == s[i..j]
    ensures i >= |s| ==> r == ""
    ensures i < |s| < j ==> r == s[i..]
  {
    var a := if i < |s| then i else |s|;
    var b := if j < |s| then j else |s|;
    s[a..b]
  }

  /** The three components of the colour setting, or the error of the first
      slice that is not a hex literal. */
  function DecodeColour(hex: string): (r: Result<(int, int, int)>)
    ensures r.Ok? ==> -15 <= r.value.0 <= 255 && -15 <= r.value.1 <= 255 && -15 <= r.value.2 <= 255
    ensures r.Ok? <==> IsHexLiteral(Trim(Slice(hex, 0, 2))) && IsHexLiteral(Trim(Slice(hex, 2, 4)))
                       && IsHexLiteral(Trim(Slice(hex, 4, 6)))
    ensures !IsHexLiteral(Trim(Slice(hex, 0, 2))) ==> r == Err(InvalidLiteral(Slice(hex, 0, 2)))
    ensures IsHexLiteral(Trim(Slice(hex, 0, 2))) && !IsHexLiteral(Trim(Slice(hex, 2, 4))) ==>
              r == Err(InvalidLiteral(Slice(hex, 2, 4)))
    ensures (&& IsHexLiteral(Trim(Slice(hex, 0, 2))) && IsHexLiteral(Trim(Slice(hex, 2, 4)))
             && !IsHexLiteral(Trim(Slice(hex, 4, 6)))) ==>
              r == Err(InvalidLiteral(Slice(hex, 4, 6)))
  {
    match ParseHexInt(Slice(hex, 0, 2))
    case Err(e) => Err(e)
    case Ok(red) =>
      match ParseHexInt(Slice(hex, 2, 4))
      case Err(e) => Err(e)
      case Ok(green) =>
        match ParseHexInt(Slice(hex, 4, 6))
        case Err(e) => Err(e)
        case Ok(blue) => Ok((red, green, blue))
  }

  function HexDigitChar(d: nat): (c: char)
    requires d < 16
    ensures IsHexDigit(c) && HexDigitValue(c) == d
  {
    if d < 10 then ('0' as nat + d) as char else ('a' as nat + d - 10) as char
  }

  /** Two lower-case hex digits for a byte, as the colour picker writes them. */
  function HexByte(n: nat): (s: string)
    requires n < 256
    ensures |s| == 2 && AllHex(s)
  {
    [HexDigitChar(n / 16), HexDigitChar(n % 16)]
  }

  /** The colour setting written by the colour picker for a colour. */
  function EncodeColour(red: nat, green: nat, blue: nat): string
    requires red < 256 && green < 256 && blue < 256
  {
    HexByte(red) + HexByte(green) + HexByte(blue)
  }

  lemma HexByteParses(n: nat)
    requires n < 256
    ensures ParseHexInt(HexByte(n)) == Ok(n as int)
  {
    var s := HexByte(n);
    TrimOfTrimmed(s);
    assert s[..1] == [s[0]];
    assert HexValue(s) == 16 * HexValue(s[..1]) + HexDigitValue(s[1]);
  }

  /** Decoding undoes encoding for every colour. */
  lemma ColourRoundTrip(red: nat, green: nat, blue: nat)
    requires red < 256 && green < 256 && blue < 256
    ensures DecodeColour(EncodeColour(red, green, blue)) == Ok((red as int, green as int, blue as int))
  {
    var hex := EncodeColour(red, green, blue);
    assert Slice(hex, 0, 2) == HexByte(red);
    assert Slice(hex, 2, 4) == HexByte(green);
    assert Slice(hex, 4, 6) == HexByte(blue);
    HexByteParses(red);
    HexByteParses(green);
    HexByteParses(blue);
  }

  /** The byte written by the hex digits at `i` and `i + 1`. */
  function PairValue(hex: string, i: nat): (v: nat)
    requires i + 2 <= |hex| && IsHexDigit(hex[i]) && IsHexDigit(hex[i + 1])
    ensures v < 256
  {
    16 * HexDigitValue(hex[i]) + HexDigitValue(hex[i + 1])
  }

  /** Any setting that starts with six hex digits decodes, each component is
      the byte its two digits write, and whatever follows is ignored. */
  lemma SixHexDigitsDecode(hex: string)
    requires |hex| >= 6 && forall i :: 0 <= i < 6 ==> IsHexDigit(hex[i])
    ensures DecodeColour(hex) == Ok((PairValue(hex, 0) as int, PairValue(hex, 2) as int, PairValue(hex, 4) as int))
  {
    HexPairParses(hex, 0);
    HexPairParses(hex, 2);
    HexPairParses(hex, 4);
  }

  lemma HexPairParses(hex: string, i: nat)
    requires i + 2 <= |hex| && IsHexDigit(hex[i]) && IsHexDigit(hex[i + 1])
    ensures ParseHexInt(Slice(hex, i, i + 2)) == Ok(PairValue(hex, i) as int)
  {
    var s := hex[i..i + 2];
    assert Slice(hex, i, i + 2) == s;
    TrimOfTrimmed(s);
    assert s[..1] == [hex[i]];
    assert HexValue(s) == 16 * HexValue(s[..1]) + HexDigitValue(hex[i + 1]);
  }

  /** A setting of four characters or fewer always fails: its third slice is
      empty. */
  lemma ShortColourRejected(hex: string)
    requires |hex| <= 4
    ensures DecodeColour(hex) == Err(InvalidLiteral(Slice(hex, 0, 2)))
            || DecodeColour(hex) == Err(InvalidLiteral(Slice(hex, 2, 4)))
            || DecodeColour(hex) == Err(InvalidLiteral(""))
  {
    assert Slice(hex, 4, 6) == "";
  }

  // ---------------------------------------------------------------------------
  // generate_video
  // ---------------------------------------------------------------------------

  /** The settings generate_video reads. */
  datatype Settings = Settings(fontName: string, fontSize: int, fontColor: string)

  /** What running FFmpeg did: it exited with a code and its standard error
      text, or it could not be started, with the text of the exception. */
  datatype ToolOutcome = Exited(code: int, stderr: string) | LaunchFailed(reason: string)

  /** The dictionary generate_video returns; `path` only on success. */
  datatype VideoResult = VideoResult(success: bool, message: string, path: Option<string>)

  /** What the FFmpeg command is built from. */
  datatype Job = Job(srt: string, duration: real, fontName: string, colour: (int, int, int))

  /** Everything generate_video computes before it runs FFmpeg; the colour
      check is the one step that can fail. */
  function PrepareJob(cues: seq<Cue>, settings: Settings): (r: Result<Job>)
    ensures r.Ok? <==> DecodeColour(settings.fontColor).Ok?
    ensures r.Err? ==> r.message == DecodeColour(settings.fontColor).message
    ensures r.Ok? ==> r.value.srt == SerializeSrt(cues) && r.value.duration == Duration(cues)
                      && r.value.fontName == EscapeFontName(settings.fontName)
                      && UnescapeFontName(r.value.fontName) == settings.fontName
  {
    var srt := SerializeSrt(cues);
    var duration := Duration(cues);
    match DecodeColour(settings.fontColor)
    case Err(e) => Err(e)
    case Ok(colour) =>
      UnescapeEscape(settings.fontName);
      Ok(Job(srt, duration, EscapeFontName(settings.fontName), colour))
  }

  /** The result record of generate_video, given what running FFmpeg on the
      prepared job did. */
  function GenerateVideo(cues: seq<Cue>, outputPath: string, settings: Settings, run: ToolOutcome): (r: VideoResult)
    ensures r.success <==> DecodeColour(settings.fontColor).Ok? && run.Exited? && run.code == 0
    ensures r.path == (if r.success then Some(outputPath) else None)
    ensures r.success ==> r.message == "Video generated successfully"
    ensures DecodeColour(settings.fontColor).Err? ==> r.message == DecodeColour(settings.fontColor).message
    ensures DecodeColour(settings.fontColor).Ok? && run.Exited? && run.code != 0 ==>
              r.message == "FFmpeg error: " + run.stderr
    ensures DecodeColour(settings.fontColor).Ok? && run.LaunchFailed? ==> r.message == run.reason
  {
    match PrepareJob(cues, settings)
    case Err(e) => VideoResult(false, e, None)
    case Ok(_) =>
      match run
      case LaunchFailed(reason) => VideoResult(false, reason, None)
      case Exited(code, stderr) =>
        if code != 0 then VideoResult(false, "FFmpeg error: " + stderr, None)
        else VideoResult(true, "Video generated successfully", Some(outputPath))
  }
}

=== FILE: wrappers.dfy ===
/** Optional values and results carrying an error message, used where the
    original code raises an exception or has nothing to return. */
module Wrappers {

  datatype Option<T> = None | Some(value: T)

  /** `Err` carries the text that Python's str(exception) would produce. */
  datatype Result<T> = Ok(value: T) | Err(message: string)
}
